=== FILE: README.md ===
# movie-review-api in Dafny

This project models the request handlers of a small movie-review REST API built on Express and Mongoose. The model works over three document collections:

- the movie catalog;
- registered users, each with a watchlist of movie ids;
- submitted reviews.

Every route is a pure function over an immutable `Store`. It returns either an error tag or the new store plus the response payload. Collections are sequences in insertion order, which the model takes as the order `find` returns when no sort is given. Where the database leaves an order or a choice open, the model fixes one: the order of `$group`'s output, and which user `findOne` returns when several match. Both are listed under "Left out".

The modules mirror the repository:

- `Common`: results, error tags, JSON request values with JavaScript truthiness, and id lookup.
- `Text`: JavaScript `trim`, `toLowerCase` (ASCII letters only), `startsWith` and `split`.
- `Models`: the three schemas and the store invariants (`ValidStore`). It also holds `populate` and the average-rating arithmetic.
- `Catalog`: the movie routes.
- `Watchlist`: watchlist add, remove and list.
- `Reviews`: review submission and the two review listings.
- `Auth`: the bearer-token middleware, register, login and profile.

Things the routes hand to a library are parameters of the model:

- ObjectId syntax (`IdSyntax`).
- Password hashing (`Hasher`).
- Token signing and verification (`TokenService`).
- The fresh id a save would generate.

A route's checks happen in the same order as in the code, and the first failure answers. The error tags stand for the distinct responses:

- 400 responses: `InvalidId`, `ValidationError`, `AlreadyPresent`, `InvalidToken`, `InvalidCredentials`.
- 401: `AuthRequired`.
- 404: `NotFound`.
- 500 responses, told apart by cause:
  - `DuplicateKey`: a unique index refused the write.
  - `SchemaViolation`: a value could not be cast to its schema type, or a required string was empty.
  - `TypeFailure`: a string method or the hasher was handed a non-string.

Behaviours of the code the model reproduces:

- `populate` on an array of references drops ids that have no movie behind them. It does not return `null` entries, because that is the library's default.
- GET /watchlist selects a `rating` field the movie schema does not have. So the listed summaries carry only the title, poster, description and release date.
- Registration checks that email and username are each unique, but not across the two fields. A username may therefore equal another user's email. `Auth.EmailShadowedByUsername` shows the effect when login's lookup returns the earlier of the two matching users: the later user cannot log in by email.

## Model

| member | source | states |
|---|---|---|
| Common.Lookup | routes/movies.js:42-43 | `findById` finds a document exactly when some document carries the id, and what it finds is stored under that id |
| Common.LookupUnique | routes/movies.js:42-45 | with unique ids, the document stored under an id is the one `findById` returns |
| Common.LookupSetDoc | routes/movies.js:76-77 | saving a document changes what its own id finds and nothing any other id finds |
| Text.Normalize | routes/auth.js:49-50 | `trim().toLowerCase()` restricted to ASCII letters: the input with its leading and trailing white space removed and every remaining ASCII upper-case letter lower-cased, other characters kept; what is cut is all white space, the result neither starts nor ends with white space, and it is empty exactly when the input was all white space |
| Text.Lower | routes/auth.js:49-50 | `toLowerCase` on ASCII letters: each ASCII upper-case letter becomes its lower-case partner, every other character is kept, position by position |
| Text.NormalizeIdempotent | models/User.js:4-5 | the schema's own `trim`/`lowercase` setters, applied after the route normalised, change nothing |
| Text.Split | middlewares/auth.js:10 | `split(' ')` yields one more part than there are spaces, none containing a space |
| Text.JoinSplit | middlewares/auth.js:10 | splitting loses nothing: joining the parts with the separator restores the header |
| Text.SplitFirst | middlewares/auth.js:10 | the first part of a split is the longest separator-free prefix, stopped by a separator or the end |
| Text.SplitAfterHead | middlewares/auth.js:10 | a separator-free head followed by the separator splits off as the first part, and the rest splits on its own |
| Models.Populate | routes/watchlist.js:10-13 | populating yields only stored movies whose ids are listed, each as stored; every listed id with a movie appears as that movie; and when every id resolves, the movies follow the id list one to one and in order |
| Models.PopulateAppend | routes/watchlist.js:10-13 | populating a concatenation of id lists populates each part, in order |
| Models.MeanWithin | routes/reviews.js:91-92 | the mean of ratings that all lie in [lo, hi] lies in [lo, hi] |
| Models.Tenths | routes/reviews.js:92 | the nearest whole number of tenths, ties away from zero, as `toFixed(1)` rounds |
| Models.Round1 | routes/reviews.js:92 | the one-decimal average lies within 0.05 of the exact mean |
| Catalog.GetMovie | routes/movies.js:34-50 | a malformed id is InvalidId before any lookup, a well-formed absent id is NotFound, otherwise the stored movie under that id |
| Catalog.GetMovieFindsStored | routes/movies.js:42-45 | in a valid store, fetching a stored movie's id returns exactly that movie |
| Catalog.Numbers | models/Movie.js:8 | casting to `[Number]` succeeds exactly when every item is a number, keeping them in order |
| Catalog.CreateMovie | routes/movies.js:90-117 | any missing or falsy required field is ValidationError; on success the movie holds the given strings, ratings default to [] and the average to 0, caller values stored as given (the ratings item by item), appended under a fresh id with nothing else changed |
| Catalog.CreateDefaultsConsistent | models/Movie.js:8-9 | a movie created without ratings or average has no ratings and average 0 |
| Catalog.CreateTrustsCaller | routes/movies.js:106-107 | a caller-supplied average is stored without recomputation, so a new movie can claim 5.0 with no ratings |
| Catalog.CreateKeepsValid | models/Movie.js:3-11 | creating keeps unique ids and required fields, and leaves users and reviews alone |
| Catalog.DeleteAll | routes/movies.js:119-127 | afterwards no movie id is found, and users and reviews are unchanged |
| Catalog.DeleteAllKeepsValid | routes/movies.js:121 | emptying the catalog keeps every store invariant |
| Catalog.Genres | routes/movies.js:23-25 | the groups' keys: each genre of the catalog once, and no other |
| Catalog.OfGenre | routes/movies.js:24 | a group's `$push` collects exactly the catalog's movies of that genre |
| Catalog.GroupByGenre | routes/movies.js:21-31 | the one-pass `$group` accumulation yields the reference grouping: one group per distinct genre, movies in catalog order; groups are put in first-appearance order, an order the model chooses |
| Catalog.GroupingStep | routes/movies.js:24 | one more movie either joins its genre's existing group at the end or opens a new group after the others |
| Catalog.GroupsAreGenreClasses | routes/movies.js:23-25 | every group is non-empty, holds exactly the catalog's movies of its genre, and no two groups share a genre |
| Catalog.EveryMovieGrouped | routes/movies.js:23-25 | every movie lies in the group of its genre |
| Catalog.GroupingPartitions | routes/movies.js:23-25 | the groups together hold as many movies as the catalog, so they partition it |
| Watchlist.Pull | routes/watchlist.js:42 | `$pull` keeps exactly the entries different from the id |
| Watchlist.PullAppend | routes/watchlist.js:42 | pulling distributes over concatenation, so the survivors keep their relative order |
| Watchlist.PullIdempotent | routes/watchlist.js:40-44 | pulling the same id twice is pulling it once |
| Watchlist.PullKeepsNoDuplicates | routes/watchlist.js:40-44 | a repeat-free watchlist stays repeat-free |
| Watchlist.AddThenRemove | routes/watchlist.js:40-44 | removing the id just added restores the watchlist |
| Watchlist.AddToWatchlist | routes/movies.js:53-87 | the add for ids compared as exact strings, so the id as written is the id stored: malformed id is InvalidId, unknown user NotFound, an id already listed AlreadyPresent (and only then), and any other request succeeds; success appends the id at the end, touching no other user, movie or review |
| Watchlist.AddIgnoresCatalog | routes/movies.js:58-77 | whatever the catalog holds, a well-formed unlisted id is added for an existing user with the same result, so an id with no movie behind it is still added |
| Watchlist.AddKeepsValid | routes/movies.js:70-77 | a successful exact-string add keeps the watchlist repeat-free and every other store invariant |
| Watchlist.AddAsWritten | routes/movies.js:53-87 | the route as written: the duplicate check tests the id as given, while the stored entry is the id's stored form; the same error order, and on success the stored form appended with no other user, movie or review touched |
| Watchlist.AddAsWrittenOnStoredForm | routes/movies.js:71-76 | for an id already in stored form the route as written and the exact-string add agree |
| Watchlist.AddStored | routes/movies.js:53-87 | the corrected route: AlreadyPresent exactly when the id's stored form is already listed; otherwise the same error order, and on success the stored form appended with no other user, movie or review touched |
| Watchlist.AddStoredKeepsValid | routes/movies.js:70-77 | whatever the stored form, a successful corrected add keeps the watchlist repeat-free and every other store invariant |
| Watchlist.AddStoredOnStoredForm | routes/movies.js:71-76 | for an id already in stored form the corrected add, the route as written and the exact-string add all agree |
| Watchlist.StoredFormAddedAgain | routes/movies.js:71-76 | when an id's stored form is listed but the id as written is not, the duplicate check passes and the same entry ends up listed twice |
| Watchlist.StoredFormAddedTwice | routes/movies.js:71-76 | an id whose stored form differs from how it was written passes the duplicate check twice, leaving the same entry listed twice |
| Watchlist.UpperCaseHexAddedTwice | routes/movies.js:71-76 | two adds of `507F1F77BCF86CD799439011` both succeed and list `507f1f77bcf86cd799439011` twice |
| Watchlist.RemoveFromWatchlist | routes/watchlist.js:30-58 | malformed id is InvalidId, unknown user NotFound, otherwise the id is pulled from that user only and the answer is the populated remaining watchlist: its stored movies, all of them, in order |
| Watchlist.RemoveDropsEveryOccurrence | routes/watchlist.js:40-44 | after a remove the id occurs nowhere in the watchlist and every other entry remains |
| Watchlist.RemoveAbsentIsNoOp | routes/watchlist.js:40-44 | removing an id that is not listed leaves the user as it was |
| Watchlist.RemoveIdempotent | routes/watchlist.js:40-44 | removing the same id a second time changes nothing |
| Watchlist.RemoveKeepsValid | routes/watchlist.js:40-44 | a successful remove keeps every store invariant |
| Watchlist.GetWatchlist | routes/watchlist.js:8-27 | NotFound exactly when the user is missing; otherwise each entry summarises the stored movie under a listed id, every listed id with a movie has its summary, and the summaries follow the watchlist when every id resolves |
| Watchlist.AddThenWatchlist | routes/watchlist.js:8-20 | after an add, GET /watchlist lists what it listed before plus, when a movie exists under the added id, that movie's summary at the end |
| Watchlist.WatchlistAppend | routes/watchlist.js:8-20 | a watchlist grown by one id at the end lists one more summary at the end exactly when that id has a movie |
| Watchlist.RemoveThenWatchlist | routes/watchlist.js:40-52 | the list a remove answers with is what GET /watchlist reports afterwards |
| Reviews.SubmitReview | routes/reviews.js:61-100 | checks in order: id syntax, field presence with a numeric rating, movie existence; success appends one review for the caller, appends the rating to the movie, sets the average to the rounded mean of the new list, and changes no other movie and no user |
| Reviews.ZeroRatingRefused | routes/reviews.js:68-70 | a rating of 0 is falsy and refused with ValidationError |
| Reviews.MissingMovieIdIsInvalidId | routes/reviews.js:64-66 | a body without a movie id fails the id check, not the presence check |
| Reviews.SubmitAppendsOneRating | routes/reviews.js:89-92 | each accepted review grows the ratings and the review collection by exactly one, and leaves the average consistent with the ratings |
| Reviews.SubmitKeepsValid | routes/reviews.js:80-93 | a successful submission keeps unique ids, required movie fields and non-empty review texts |
| Reviews.SubmitExample | routes/reviews.js:89-92 | ratings [4, 5] and a new 3 give ratings [4, 5, 3] and average 4.0 |
| Reviews.TenthsMonotone | routes/reviews.js:92 | one-decimal rounding never reverses the order of two values |
| Reviews.AverageWithinRatingRange | routes/reviews.js:89-92 | when every rating lies between two whole numbers lo and hi, so does the rounded average stored on the movie |
| Reviews.Summarize | routes/reviews.js:24-30 | each row keeps the review's id, text and rating, and carries the resolved movie's title and poster, "Unknown Movie" for a missing or empty title and no poster for a missing or empty one |
| Reviews.SummarizeReadsOwnMovie | routes/reviews.js:17-27 | a row depends on the catalog only through the title and poster of the review's own movie |
| Reviews.Where | routes/reviews.js:17 | `find` with a filter selects exactly the stored reviews the filter keeps, never more than there are |
| Reviews.WhereAppend | routes/reviews.js:17 | filtering distributes over concatenation, so the kept reviews stay in natural order |
| Reviews.WhereOne | routes/reviews.js:17 | a single review is kept exactly when the filter accepts it |
| Reviews.ListUserReviews | routes/reviews.js:12-37 | one row per review of the caller, in order, each that review joined with its movie's title and poster |
| Reviews.ListingSurvivesDeletedMovies | routes/reviews.js:23-27 | after the catalog is emptied every review is still listed, as "Unknown Movie" without a poster |
| Reviews.ListMovieReviews | routes/reviews.js:41-55 | InvalidId exactly when the id is malformed; otherwise row k is the movie's k-th review, with its author's current username when the author exists and none otherwise |
| Reviews.CatalogJoinUnchanged | routes/reviews.js:89-93 | a submission changes no movie's title or poster, nor which ids have a movie, and only appends the new review |
| Reviews.UserListingAppend | routes/reviews.js:12-37 | appending a review by the caller, with titles and posters unchanged, appends its row to the caller's listing |
| Reviews.SubmitThenUserListing | routes/reviews.js:12-37 | after a submission the caller's listing is the old listing with the new review's row at the end |
| Reviews.MovieListingAppend | routes/reviews.js:41-55 | appending a review of a well-formed movie id, with users unchanged, appends its row to that movie's listing |
| Reviews.SubmitThenMovieListing | routes/reviews.js:41-55 | after a submission the movie's listing is the old listing with the new review and its author at the end |
| Auth.ExtractToken | middlewares/auth.js:10 | with a `Bearer ` prefix, the second space-separated segment: the space-free text right after the prefix, up to the next space or the end; any other header whole |
| Auth.BearerRoundTrip | middlewares/auth.js:10 | `Bearer <token>` for a space-free token yields the token back |
| Auth.Authenticate | middlewares/auth.js:4-19 | no or empty header is AuthRequired; otherwise the request passes exactly when the extracted token verifies, with the verified claims, and fails with InvalidToken |
| Auth.Guard | middlewares/auth.js:13-15 | a rejection is answered with the middleware's error and without the handler; a verified request gets exactly the handler's answer for the verified claims |
| Auth.RejectedIgnoresHandler | middlewares/auth.js:6-8 | a rejected request gets the same answer whatever the handler, either AuthRequired or InvalidToken |
| Auth.SignedTokenAuthenticates | middlewares/auth.js:10-15 | a token the service signed, sent as a bearer header, authenticates as the claims it was signed with |
| Auth.Register | routes/auth.js:31-62 | a missing or falsy field is ValidationError (exactly then); non-strings fail; an empty normalised identifier or hash is SchemaViolation (exactly then); a clash with a stored id, email or username is DuplicateKey (exactly then); any other registration succeeds and appends one user with trimmed lower-cased email and username, the hash in place of the password and an empty watchlist |
| Auth.DuplicateRegistrationRefused | models/User.js:4-5 | an email or username already taken after normalisation makes registration fail |
| Auth.RegisterKeepsValid | models/User.js:3-8 | registration keeps ids, emails and usernames unique and every stored identifier normalised |
| Auth.FirstMatch | routes/auth.js:79-84 | the lookup finds the first user whose email or username equals the key, or none |
| Auth.Login | routes/auth.js:68-115 | a missing field is ValidationError (exactly then); an unknown identifier or a failed password check is InvalidCredentials; a matching password yields the token signed for the matched user's id and username with a one-hour lifetime |
| Auth.LoginFailureUndisclosed | routes/auth.js:88-101 | an unknown identifier and a wrong password give the identical InvalidCredentials answer |
| Auth.LoginRefused | routes/auth.js:88-101 | an identifier that finds no user, or whose user's password check fails, is refused with InvalidCredentials |
| Auth.RegisterThenLogin | routes/auth.js:79-106 | after registering, logging in with the same email and password gives a token for the new user, unless an earlier user has that email as username |
| Auth.EmailShadowedByUsername | routes/auth.js:79-84 | a registration whose email is another user's username succeeds, and when the lookup returns the earlier stored match, login by that email then fails |
| Auth.GetProfile | routes/auth.js:11-28 | NotFound exactly when the user is missing; otherwise its id, email and username, and its watchlist populated: stored movies of listed ids, all of them, in order, and summarised exactly as the watchlist route lists them |
| Auth.RemoveThenProfile | routes/auth.js:11-28 | after a watchlist remove, the profile's watchlist is exactly the list the remove answered with |

## Left out

- HTTP status codes, response shaping, console logging and the Express and MongoDB plumbing. Error tags stand in for the responses.
- GET /movies (routes/movies.js:10-18) returns the collection as stored, so there is nothing to state beyond the store itself.
- Concurrency and partial failure. Each request is one atomic transition. The model does not cover the lost update when two reviews race on a movie, or a review saved whose movie save then fails.
- Cryptography and time. `Hasher` and `TokenService` are parameters, and token expiry is judged inside `TokenService.verify`.
- ObjectId syntax is the parameter `IdSyntax`. Ids are compared as exact strings, so the driver's case-insensitive hex matching is not modelled.
- Malformed user ids inside a valid token. The driver would throw a cast error on `findById`; the model simply treats such an id as missing.
- Models.Round1: computed on exact reals. Binary floating point, the string that `toFixed` returns, and its cast back to a number are not modelled, so rounding can differ from the program's at exact ties.
- Reviews.SubmitReview: a `movieId` given as a JSON number is refused as InvalidId, although the driver's check accepts some numbers.
- Reviews.SubmitReview: a non-string `review` is refused with SchemaViolation, although the schema would cast a number or boolean to a string.
- Catalog.CreateMovie: non-string required fields, a non-array `ratings` and a non-number `averageRating` are refused with SchemaViolation. The schema would cast some of them: numbers to strings, a single number to a one-element array, numeric strings to numbers.
- Auth.Register: lower-casing covers the ASCII letters only. The same holds for `Auth.Login`.
- Catalog.Numbers: the cast to `[Number]` is narrower than the schema's. The schema also casts numeric strings and booleans among the items (`"4"` becomes 4, `true` becomes 1) and keeps `null` items. So POST /movies with `ratings: ["4", 5]` stores `[4, 5]` in the program, but `Catalog.CreateMovie` answers SchemaViolation.
- Watchlist.AddToWatchlist: compares ids as exact strings, which matches the program only for ids already in stored form. The program checks the id as written in the URL against the stored lower-case hex, so an upper-case hex id is accepted again and listed twice. `Watchlist.AddAsWritten` models that, `Watchlist.AddStored` models the corrected check, and Findings records it.
- Watchlist.AddKeepsValid: the repeat-free watchlist it proves holds for exact-string ids only. The program's watchlist can hold the same movie twice, as `Watchlist.StoredFormAddedTwice` shows; `Watchlist.AddStoredKeepsValid` proves it for the corrected add under every stored form.
- Text.Lower: lower-cases ASCII letters only. JavaScript's `toLowerCase` also lower-cases other letters (`Ä` to `ä`) and can lengthen a string (`İ` becomes two code units), which the model does not follow.
- Text.Normalize: inherits the ASCII-only lower-casing of `Text.Lower`, so it keeps the length of the trimmed input where JavaScript may not.
- JSON numbers too large for a double (which become Infinity) are not modelled.
- Catalog.GroupByGenre: the `$group` stage does not order its output groups. The model fixes first-appearance order, and movies within a group in catalog order, so the equality with the reference grouping is stated for that choice.
- Auth.FirstMatch: with unique indexes in play, which of several users matching the `$or` lookup `findOne` returns depends on the database's query plan. The model assumes the earliest in insertion order.
- Auth.Login: inherits that assumption, as do `Auth.RegisterThenLogin` and `Auth.EmailShadowedByUsername`.

## Findings

| source | as written | input that shows it | evidently intended | confidence | as-written member | corrected member |
|---|---|---|---|---|---|---|
| routes/movies.js:71-76 | `user.watchlist.includes(movieId)` compares the id as written in the URL with the stored ObjectIds, whose string form is lower-case hex, while `push(new ObjectId(movieId))` stores the lower-case form | adding `507F1F77BCF86CD799439011` twice: both duplicate checks pass and the watchlist lists `507f1f77bcf86cd799439011` twice | the duplicate check compares the stored form, so a movie is listed at most once | medium, not executed | Watchlist.StoredFormAddedAgain | Watchlist.AddStoredKeepsValid |

=== FILE: auth.dfy ===
/**
 Authentication: the middleware that turns an Authorization header into the
 caller's identity, and the register, login and profile routes. Password
 hashing and token signing are cryptographic collaborators, passed in as
 functions.
 */
module Auth {
  import opened Common
  import opened Text
  import opened Models
  import opened Watchlist

  /** The token payload: what login signs and what the middleware attaches to the request. */
  datatype Claims = Claims(id: Id, username: string, lifetime: nat)

  /** Tokens are signed with `expiresIn: '1h'`. */
  const TokenLifetime: nat := 3600

  /** Signing and verification under the server's secret; expiry is judged inside `verify`. */
  datatype TokenService = TokenService(sign: Claims -> string, verify: string -> Option<Claims>)

  /** The password hasher: a one-way hash and the check of a password against a stored hash. */
  datatype Hasher = Hasher(hash: string -> string, compare: (string, string) -> bool)

  /** The middleware's token: with a `Bearer ` prefix, the second space-separated segment; otherwise the whole header. */
  function ExtractToken(header: string): (t: string)
    ensures !StartsWith(header, "Bearer ") ==> t == header
    ensures StartsWith(header, "Bearer ") ==>
              && 7 + |t| <= |header| && t == header[7..7 + |t|]
              && (7 + |t| == |header| || header[7 + |t|] == ' ')
              && ' ' !in t
  {
    if StartsWith(header, "Bearer ") then
      var rest := header[7..];
      assert header == "Bearer" + [' '] + rest;
      SplitAfterHead("Bearer", rest, ' ');
      SplitFirst(rest, ' ');
      Split(header, ' ')[1]
    else header
  }

  /** A bearer header built from a space-free token yields that token back. */
  lemma BearerRoundTrip(token: string)
    requires ' ' !in token
    ensures ExtractToken("Bearer " + token) == token
  {
    var h := "Bearer " + token;
    assert h == "Bearer" + [' '] + token;
    SplitAround("Bearer", token, ' ');
  }

  /** The authorization middleware: no header is AuthRequired, a token that does not verify is InvalidToken. */
  function Authenticate(header: Option<string>, ts: TokenService): (r: Result<Claims>)
    ensures header.None? || header == Some("") ==> r == Err(AuthRequired)
    ensures header.Some? && header.value != "" ==>
              && (r.Ok? <==> ts.verify(ExtractToken(header.value)).Some?)
              && (r.Ok? ==> ts.verify(ExtractToken(header.value)) == Some(r.value))
              && (r.Err? ==> r.error == InvalidToken)
  {
    if header.None? || header.value == "" then Err(AuthRequired)
    else
      match ts.verify(ExtractToken(header.value))
      case None => Err(InvalidToken)
      case Some(c) => Ok(c)
  }

  /** A route behind the middleware: the handler sees only verified claims. */
  function Guard<T>(header: Option<string>, ts: TokenService, handler: Claims -> Result<T>): (r: Result<T>)
    ensures Authenticate(header, ts).Err? ==> r == Err(Authenticate(header, ts).error)
    ensures Authenticate(header, ts).Ok? ==> r == handler(Authenticate(header, ts).value)
  {
    match Authenticate(header, ts)
    case Err(e) => Err(e)
    case Ok(c) => handler(c)
  }

  /** A rejected request never reaches its handler: any two handlers give the same answer. */
  lemma RejectedIgnoresHandler<T>(header: Option<string>, ts: TokenService, h1: Claims -> Result<T>, h2: Claims -> Result<T>)
    requires Authenticate(header, ts).Err?
    ensures Guard(header, ts, h1) == Guard(header, ts, h2)
    ensures Guard(header, ts, h1).error in {AuthRequired, InvalidToken}
  {
  }

  /** A token the service signed, sent as `Bearer <token>`, authenticates as the claims it was signed with. */
  lemma SignedTokenAuthenticates(ts: TokenService, c: Claims)
    requires ts.verify(ts.sign(c)) == Some(c)
    requires ' ' !in ts.sign(c)
    ensures Authenticate(Some("Bearer " + ts.sign(c)), ts) == Ok(c)
  {
    BearerRoundTrip(ts.sign(c));
  }

  /** The body of POST /auth/register. */
  datatype RegisterBody = RegisterBody(email: Json, username: Json, password: Json)

  predicate EmailTaken(users: seq<Doc<User>>, email: string) {
    exists i :: 0 <= i < |users| && users[i].body.email == email
  }

  predicate UsernameTaken(users: seq<Doc<User>>, username: string) {
    exists i :: 0 <= i < |users| && users[i].body.username == username
  }

  /**
   POST /auth/register: presence check, then hashing (a non-string password
   throws), then normalization (a non-string identifier throws), then the
   schema's required check and the unique indexes on save.
   */
  function Register(s: Store, hasher: Hasher, newId: Id, b: RegisterBody): (r: Result<Store>)
    ensures !(Truthy(b.email) && Truthy(b.username) && Truthy(b.password)) <==> r == Err(ValidationError)
    ensures (Truthy(b.email) && Truthy(b.username) && Truthy(b.password)
             && !(b.email.Str? && b.username.Str? && b.password.Str?)) ==> r == Err(TypeFailure)
    ensures r == Err(DuplicateKey) ==>
              HasId(s.users, newId) || EmailTaken(s.users, Normalize(b.email.s)) || UsernameTaken(s.users, Normalize(b.username.s))
    ensures Truthy(b.email) && Truthy(b.username) && Truthy(b.password) && b.email.Str? && b.username.Str? && b.password.Str? ==>
      var email, username, hash := Normalize(b.email.s), Normalize(b.username.s), hasher.hash(b.password.s);
      && (email == "" || username == "" || hash == "" <==> r == Err(SchemaViolation))
      && (email != "" && username != "" && hash != "" ==>
            (HasId(s.users, newId) || EmailTaken(s.users, email) || UsernameTaken(s.users, username) <==> r == Err(DuplicateKey)))
      && ((&& email != "" && username != "" && hash != ""
           && !HasId(s.users, newId) && !EmailTaken(s.users, email) && !UsernameTaken(s.users, username)) ==> r.Ok?)
    ensures r.Ok? ==>
      && b.email.Str? && b.username.Str? && b.password.Str?
      && !HasId(s.users, newId)
      && !EmailTaken(s.users, Normalize(b.email.s)) && !UsernameTaken(s.users, Normalize(b.username.s))
      && Normalize(b.email.s) != "" && Normalize(b.username.s) != "" && hasher.hash(b.password.s) != ""
      && r.value == s.(users := s.users + [Doc(newId, User(Normalize(b.email.s), Normalize(b.username.s), hasher.hash(b.password.s), []))])
  {
    if !(Truthy(b.email) && Truthy(b.username) && Truthy(b.password)) then Err(ValidationError)
    else if !b.password.Str? || !b.email.Str? || !b.username.Str? then Err(TypeFailure)
    else
      var u := User(Normalize(b.email.s), Normalize(b.username.s), hasher.hash(b.password.s), []);
      if u.email == "" || u.username == "" || u.password == "" then Err(SchemaViolation)
      else if HasId(s.users, newId) || EmailTaken(s.users, u.email) || UsernameTaken(s.users, u.username) then Err(DuplicateKey)
      else Ok(s.(users := s.users + [Doc(newId, u)]))
  }

  /** A colliding email or username fails the insert, so no record is added. */
  lemma DuplicateRegistrationRefused(s: Store, hasher: Hasher, newId: Id, b: RegisterBody)
    requires b.email.Str? && b.username.Str? && b.password.Str?
    requires EmailTaken(s.users, Normalize(b.email.s)) || UsernameTaken(s.users, Normalize(b.username.s))
    ensures Register(s, hasher, newId, b).Err?
  {
  }

  /** Appending a well-formed user whose id, email and username are all fresh keeps every store invariant. */
  lemma AppendUserKeepsValid(s: Store, d: Doc<User>)
    requires ValidStore(s)
    requires UserWellFormed(d.body)
    requires !HasId(s.users, d.id) && !EmailTaken(s.users, d.body.email) && !UsernameTaken(s.users, d.body.username)
    ensures ValidStore(s.(users := s.users + [d]))
  {
    var users := s.users + [d];
    var n := |s.users|;
    forall i, j | 0 <= i < j < |users|
      ensures users[i].id != users[j].id
      ensures users[i].body.email != users[j].body.email
      ensures users[i].body.username != users[j].body.username
    {
      assert users[i] == s.users[i];
      if j < n {
        assert users[j] == s.users[j];
      }
    }
    forall i | 0 <= i < |users|
      ensures UserWellFormed(users[i].body)
    {
      if i < n {
        assert users[i] == s.users[i];
      }
    }
  }

  /** A successful registration keeps every store invariant: identifiers unique and normalized, watchlist empty. */
  lemma RegisterKeepsValid(s: Store, hasher: Hasher, newId: Id, b: RegisterBody)
    requires ValidStore(s)
    requires Register(s, hasher, newId, b).Ok?
    ensures ValidStore(Register(s, hasher, newId, b).value)
  {
    var u := User(Normalize(b.email.s), Normalize(b.username.s), hasher.hash(b.password.s), []);
    assert NoDuplicates(u.watchlist);
    AppendUserKeepsValid(s, Doc(newId, u));
  }

  /** The body of POST /auth/login. */
  datatype LoginBody = LoginBody(emailOrUsername: Json, password: Json)

  predicate Matches(u: User, key: string) {
    u.email == key || u.username == key
  }

  /** `findOne` with `$or` on email and username: the position of the first match, or the number of users. */
  function FirstMatch(users: seq<Doc<User>>, key: string): (k: nat)
    ensures k <= |users|
    ensures k < |users| ==> Matches(users[k].body, key)
    ensures forall j :: 0 <= j < k ==> !Matches(users[j].body, key)
  {
    if users == [] then 0
    else if Matches(users[0].body, key) then 0
    else 1 + FirstMatch(users[1..], key)
  }

  /**
   POST /auth/login: presence check, normalization of the identifier, lookup of
   the first user whose email or username equals it, the password check, and a
   token for `{id, username}` with a one-hour lifetime.
   */
  function Login(s: Store, hasher: Hasher, ts: TokenService, b: LoginBody): (r: Result<string>)
    ensures !(Truthy(b.emailOrUsername) && Truthy(b.password)) <==> r == Err(ValidationError)
    ensures Truthy(b.emailOrUsername) && Truthy(b.password) && !b.emailOrUsername.Str? ==> r == Err(TypeFailure)
    ensures Truthy(b.emailOrUsername) && b.emailOrUsername.Str? && Truthy(b.password) ==>
      var k := FirstMatch(s.users, Normalize(b.emailOrUsername.s));
      && (k == |s.users| ==> r == Err(InvalidCredentials))
      && (k < |s.users| && !b.password.Str? ==> r == Err(TypeFailure))
      && (k < |s.users| && b.password.Str? ==>
            && (r == Err(InvalidCredentials) <==> !hasher.compare(b.password.s, s.users[k].body.password))
            && (r.Ok? ==> r.value == ts.sign(Claims(s.users[k].id, s.users[k].body.username, TokenLifetime)))
            && (hasher.compare(b.password.s, s.users[k].body.password) ==>
                  r == Ok(ts.sign(Claims(s.users[k].id, s.users[k].body.username, TokenLifetime)))))
  {
    if !(Truthy(b.emailOrUsername) && Truthy(b.password)) then Err(ValidationError)
    else if !b.emailOrUsername.Str? then Err(TypeFailure)
    else
      var k := FirstMatch(s.users, Normalize(b.emailOrUsername.s));
      if k == |s.users| then Err(InvalidCredentials)
      else if !b.password.Str? then Err(TypeFailure)
      else if !hasher.compare(b.password.s, s.users[k].body.password) then Err(InvalidCredentials)
      else
        var u := s.users[k];
        Ok(ts.sign(Claims(u.id, u.body.username, TokenLifetime)))
  }

  /** An unknown identifier and a wrong password are answered identically. */
  lemma LoginFailureUndisclosed(s1: Store, s2: Store, hasher: Hasher, ts: TokenService, ident: string, pw: string)
    requires ident != "" && pw != ""
    requires FirstMatch(s1.users, Normalize(ident)) == |s1.users|
    requires FirstMatch(s2.users, Normalize(ident)) < |s2.users|
    requires !hasher.compare(pw, s2.users[FirstMatch(s2.users, Normalize(ident))].body.password)
    ensures Login(s1, hasher, ts, LoginBody(Str(ident), Str(pw))) == Login(s2, hasher, ts, LoginBody(Str(ident), Str(pw)))
    ensures Login(s1, hasher, ts, LoginBody(Str(ident), Str(pw))) == Err(InvalidCredentials)
  {
    LoginRefused(s1, hasher, ts, ident, pw);
    LoginRefused(s2, hasher, ts, ident, pw);
  }

  /** A string identifier and password that find no user, or fail the password check, are refused. */
  lemma LoginRefused(s: Store, hasher: Hasher, ts: TokenService, ident: string, pw: string)
    requires ident != "" && pw != ""
    requires var k := FirstMatch(s.users, Normalize(ident));
             k == |s.users| || !hasher.compare(pw, s.users[k].body.password)
    ensures Login(s, hasher, ts, LoginBody(Str(ident), Str(pw))) == Err(InvalidCredentials)
  {
  }

  /** Appending a user that matches, after users that do not, makes it the first match. */
  lemma {:induction false} FirstMatchAppend(users: seq<Doc<User>>, d: Doc<User>, key: string)
    requires forall j :: 0 <= j < |users| ==> !Matches(users[j].body, key)
    requires Matches(d.body, key)
    ensures FirstMatch(users + [d], key) == |users|
  {
    if users != [] {
      assert (users + [d])[1..] == users[1..] + [d];
      FirstMatchAppend(users[1..], d, key);
    }
  }

  /**
   After registering, logging in with the same email and password yields a
   token for the new user, provided no earlier user has that email as its
   username (the lookup takes the first user matching either field).
   */
  lemma RegisterThenLogin(s: Store, hasher: Hasher, ts: TokenService, newId: Id, b: RegisterBody)
    requires Register(s, hasher, newId, b).Ok?
    requires hasher.compare(b.password.s, hasher.hash(b.password.s))
    requires !UsernameTaken(s.users, Normalize(b.email.s))
    ensures
      var s' := Register(s, hasher, newId, b).value;
      Login(s', hasher, ts, LoginBody(b.email, b.password))
        == Ok(ts.sign(Claims(newId, Normalize(b.username.s), TokenLifetime)))
  {
    var s' := Register(s, hasher, newId, b).value;
    var key := Normalize(b.email.s);
    var d := Doc(newId, User(key, Normalize(b.username.s), hasher.hash(b.password.s), []));
    assert s'.users == s.users + [d];
    assert !EmailTaken(s.users, key);
    forall j | 0 <= j < |s.users|
      ensures !Matches(s.users[j].body, key)
    {
      assert s.users[j].body.email != key;
      assert s.users[j].body.username != key;
    }
    FirstMatchAppend(s.users, d, key);
    var k := FirstMatch(s'.users, key);
    assert k == |s.users| && s'.users[k] == d;
    assert hasher.compare(b.password.s, s'.users[k].body.password);
    var r := Login(s', hasher, ts, LoginBody(b.email, b.password));
    assert r != Err(InvalidCredentials);
    assert r.Ok?;
  }

  /** The hasher of the shadowing example: a tagged copy of the password. */
  function TagHasher(): Hasher {
    Hasher(pw => "h:" + pw, (pw, h) => h == "h:" + pw)
  }

  /** The store of the shadowing example: one user whose username looks like an email. */
  function ShadowStore(): Store {
    Store([], [Doc("u1", User("a@x.com", "b@y.com", "h:pw1", []))], [])
  }

  /** The identifiers of the shadowing example are already in stored form. */
  lemma ShadowKeysNormal()
    ensures Normalize("b@y.com") == "b@y.com" && Normalize("bob") == "bob"
  {
    assert IsNormal("b@y.com");
    assert IsNormal("bob");
    NormalFixed("b@y.com");
    NormalFixed("bob");
  }

  lemma ShadowRegisterSucceeds()
    ensures Register(ShadowStore(), TagHasher(), "u2", RegisterBody(Str("b@y.com"), Str("bob"), Str("pw2")))
              == Ok(Store([], ShadowStore().users + [Doc("u2", User("b@y.com", "bob", "h:pw2", []))], []))
  {
    var s := ShadowStore();
    ShadowKeysNormal();
    assert TagHasher().hash("pw2") == "h:pw2";
    assert !EmailTaken(s.users, "b@y.com");
    assert !UsernameTaken(s.users, "bob");
    assert !HasId(s.users, "u2");
  }

  /** The second user's password does not check against the first user's hash. */
  lemma ShadowPasswordMismatch()
    ensures !TagHasher().compare("pw2", "h:pw1")
  {
    assert ("h:" + "pw2")[4] == '2';
  }

  /**
   One user's username can equal another user's email, since the unique
   indexes are per field. With the lookup taking the earliest stored match,
   the later user then cannot log in by email: the lookup stops at the
   earlier user and the password check fails.
   */
  lemma ShadowLoginFails(ts: TokenService)
    ensures
      var s' := Store([], ShadowStore().users + [Doc("u2", User("b@y.com", "bob", "h:pw2", []))], []);
      Login(s', TagHasher(), ts, LoginBody(Str("b@y.com"), Str("pw2"))) == Err(InvalidCredentials)
  {
    var users := ShadowStore().users + [Doc("u2", User("b@y.com", "bob", "h:pw2", []))];
    ShadowKeysNormal();
    assert users[0].body.password == "h:pw1" && Matches(users[0].body, "b@y.com");
    assert FirstMatch(users, "b@y.com") == 0;
    ShadowPasswordMismatch();
  }

  lemma EmailShadowedByUsername(ts: TokenService)
    ensures
      var b := RegisterBody(Str("b@y.com"), Str("bob"), Str("pw2"));
      && Register(ShadowStore(), TagHasher(), "u2", b).Ok?
      && Login(Register(ShadowStore(), TagHasher(), "u2", b).value, TagHasher(), ts, LoginBody(Str("b@y.com"), Str("pw2")))
           == Err(InvalidCredentials)
  {
    ShadowRegisterSucceeds();
    ShadowLoginFails(ts);
  }

  /** What GET /auth/profile answers: the user's fields and the movies of its watchlist that still exist. */
  datatype Profile = Profile(id: Id, email: string, username: string, watchlist: seq<Doc<Movie>>)

  /** GET /auth/profile for the verified caller `userId`. */
  function GetProfile(s: Store, userId: Id): (r: Result<Profile>)
    ensures !HasId(s.users, userId) <==> r == Err(NotFound)
    ensures r.Ok? ==>
      && r.value.id == userId
      && r.value.email == UserOf(s, userId).email && r.value.username == UserOf(s, userId).username
      && |r.value.watchlist| <= |UserOf(s, userId).watchlist|
      && Resolved(r.value.watchlist, UserOf(s, userId).watchlist, s.movies)
      && Summaries(r.value.watchlist) == GetWatchlist(s, userId).value
  {
    match Lookup(s.users, userId)
    case None => Err(NotFound)
    case Some(u) => Ok(Profile(userId, u.email, u.username, Populate(u.watchlist, s.movies)))
  }

  /** The list a watchlist remove answers with is the watchlist GET /auth/profile reports afterwards. */
  lemma RemoveThenProfile(s: Store, valid: IdSyntax, userId: Id, movieId: Id)
    requires RemoveFromWatchlist(s, valid, userId, movieId).Ok?
    ensures
      var (s', listed) := RemoveFromWatchlist(s, valid, userId, movieId).value;
      && GetProfile(s', userId).Ok?
      && GetProfile(s', userId).value.watchlist == listed
      && GetProfile(s', userId).value.username == UserOf(s, userId).username
  {
    var s' := RemoveFromWatchlist(s, valid, userId, movieId).value.0;
    assert HasId(s'.users, userId);
  }
}

=== FILE: catalog.dfy ===
/**
 The movie catalog routes: fetch one movie, create a movie, delete every
 movie, and group the catalog by genre.
 */
module Catalog {
  import opened Common
  import opened Models

  /** GET /movies/:id — the id's syntax is checked before any lookup. */
  function GetMovie(s: Store, valid: IdSyntax, id: Id): (r: Result<Movie>)
    ensures !valid(id) ==> r == Err(InvalidId)
    ensures valid(id) && !HasId(s.movies, id) ==> r == Err(NotFound)
    ensures valid(id) && HasId(s.movies, id) ==> r.Ok?
    ensures r.Ok? ==> Doc(id, r.value) in s.movies
  {
    if !valid(id) then Err(InvalidId)
    else
      match Lookup(s.movies, id)
      case None => Err(NotFound)
      case Some(m) => Ok(m)
  }

  /** In a store with unique ids, a successful fetch returns exactly the stored movie. */
  lemma GetMovieFindsStored(s: Store, valid: IdSyntax, id: Id, m: Movie)
    requires ValidStore(s)
    requires valid(id) && Doc(id, m) in s.movies
    ensures GetMovie(s, valid, id) == Ok(m)
  {
    LookupUnique(s.movies, id, m);
  }

  /** The body of POST /movies. */
  datatype MovieFields = MovieFields(
    title: Json,
    poster: Json,
    description: Json,
    releaseDate: Json,
    genre: Json,
    ratings: Json,
    averageRating: Json)

  predicate HasRequiredFields(f: MovieFields) {
    Truthy(f.title) && Truthy(f.poster) && Truthy(f.description) && Truthy(f.releaseDate) && Truthy(f.genre)
  }

  /** The numbers of a JSON array whose items are all numbers; nothing otherwise. */
  function Numbers(items: seq<Json>): (r: Option<seq<real>>)
    ensures r.Some? <==> forall i :: 0 <= i < |items| ==> items[i].Num?
    ensures r.Some? ==> |r.value| == |items| && forall i :: 0 <= i < |items| ==> r.value[i] == items[i].n
  {
    if items == [] then Some([])
    else if !items[0].Num? then None
    else
      match Numbers(items[1..])
      case None => None
      case Some(rest) => Some([items[0].n] + rest)
  }

  /** The value of the `ratings` field once `ratings || []` is cast to an array of numbers. */
  function RatingsField(v: Json): Option<seq<real>> {
    if !Truthy(v) then Some([])
    else if v.Arr? then Numbers(v.items)
    else None
  }

  /** The value of the `averageRating` field once `averageRating || 0` is cast to a number. */
  function AverageField(v: Json): Option<real> {
    if !Truthy(v) then Some(0.0)
    else if v.Num? then Some(v.n)
    else None
  }

  /** POST /movies: validates the five required fields, applies the defaults, and appends the new movie under `newId`. */
  function CreateMovie(s: Store, newId: Id, f: MovieFields): (r: Result<(Store, Doc<Movie>)>)
    ensures !HasRequiredFields(f) ==> r == Err(ValidationError)
    ensures r.Err? && HasRequiredFields(f) ==> r.error in {SchemaViolation, DuplicateKey}
    ensures r.Ok? ==>
      var (s', d) := r.value;
      && d.id == newId && !HasId(s.movies, newId)
      && s' == s.(movies := s.movies + [d])
      && f.title == Str(d.body.title) && f.poster == Str(d.body.poster)
      && f.description == Str(d.body.description) && f.releaseDate == Str(d.body.releaseDate)
      && f.genre == Str(d.body.genre)
      && MovieRequired(d.body)
      && (!Truthy(f.ratings) ==> d.body.ratings == [])
      && (Truthy(f.ratings) ==>
            && f.ratings.Arr? && |d.body.ratings| == |f.ratings.items|
            && forall i :: 0 <= i < |f.ratings.items| ==> f.ratings.items[i] == Num(d.body.ratings[i]))
      && (!Truthy(f.averageRating) ==> d.body.averageRating == 0.0)
      && (Truthy(f.averageRating) ==> f.averageRating == Num(d.body.averageRating))
    ensures HasRequiredFields(f) && !HasId(s.movies, newId)
            && f.title.Str? && f.poster.Str? && f.description.Str? && f.releaseDate.Str? && f.genre.Str?
            && RatingsField(f.ratings).Some? && AverageField(f.averageRating).Some?
            ==> r.Ok?
  {
    if !HasRequiredFields(f) then Err(ValidationError)
    else if !(f.title.Str? && f.poster.Str? && f.description.Str? && f.releaseDate.Str? && f.genre.Str?)
    then Err(SchemaViolation)
    else
      match (RatingsField(f.ratings), AverageField(f.averageRating))
      case (Some(rs), Some(avg)) =>
        if HasId(s.movies, newId) then Err(DuplicateKey)
        else
          var d := Doc(newId, Movie(f.title.s, f.poster.s, f.description.s, f.releaseDate.s, rs, avg, f.genre.s));
          Ok((s.(movies := s.movies + [d]), d))
      case _ => Err(SchemaViolation)
  }

  /** A movie created without ratings or an average starts consistent: no ratings and an average of 0. */
  lemma CreateDefaultsConsistent(s: Store, newId: Id, f: MovieFields)
    requires !Truthy(f.ratings) && !Truthy(f.averageRating)
    requires CreateMovie(s, newId, f).Ok?
    ensures Consistent(CreateMovie(s, newId, f).value.1.body)
  {
  }

  /** Caller-supplied values are stored without recomputation, so a new movie can start with an average its ratings do not support. */
  lemma CreateTrustsCaller()
    ensures
      var f := MovieFields(Str("t"), Str("p"), Str("d"), Str("2020"), Str("drama"), Undefined, Num(5.0));
      var r := CreateMovie(Store([], [], []), "m1", f);
      r.Ok? && r.value.1.body.ratings == [] && r.value.1.body.averageRating == 5.0 && !Consistent(r.value.1.body)
  {
  }

  /** Creating a movie keeps every store invariant and leaves users and reviews alone. */
  lemma CreateKeepsValid(s: Store, newId: Id, f: MovieFields)
    requires ValidStore(s)
    requires CreateMovie(s, newId, f).Ok?
    ensures ValidStore(CreateMovie(s, newId, f).value.0)
    ensures CreateMovie(s, newId, f).value.0.users == s.users
    ensures CreateMovie(s, newId, f).value.0.reviews == s.reviews
  {
    var (s', d) := CreateMovie(s, newId, f).value;
    forall i, j | 0 <= i < j < |s'.movies|
      ensures s'.movies[i].id != s'.movies[j].id
    {
      if j == |s.movies| {
        assert s'.movies[i] == s.movies[i];
        assert !HasId(s.movies, newId);
      }
    }
  }

  /** DELETE /movies: the catalog is emptied, nothing else is touched. */
  function DeleteAll(s: Store): (r: Store)
    ensures forall id :: !HasId(r.movies, id)
    ensures r.users == s.users && r.reviews == s.reviews
  {
    s.(movies := [])
  }

  /** Deleting every movie keeps every store invariant. */
  lemma DeleteAllKeepsValid(s: Store)
    requires ValidStore(s)
    ensures ValidStore(DeleteAll(s))
  {
  }

  /** One entry of GET /movies/genres: a genre and its movies in catalog order. */
  datatype Group = Group(genre: string, movies: seq<Doc<Movie>>)

  /** Some movie of the catalog has genre `g`. */
  predicate HasGenre(c: seq<Doc<Movie>>, g: string) {
    exists i :: 0 <= i < |c| && c[i].body.genre == g
  }

  lemma HasGenreSnoc(p: seq<Doc<Movie>>, d: Doc<Movie>, g: string)
    ensures HasGenre(p + [d], g) <==> HasGenre(p, g) || d.body.genre == g
  {
    var c := p + [d];
    if HasGenre(c, g) {
      var i :| 0 <= i < |c| && c[i].body.genre == g;
      if i < |p| { assert p[i] == c[i]; }
    }
    if HasGenre(p, g) {
      var i :| 0 <= i < |p| && p[i].body.genre == g;
      assert c[i] == p[i];
    }
    if d.body.genre == g {
      assert c[|p|] == d;
    }
  }

  /** The distinct genres of the catalog, in order of first appearance. */
  function Genres(c: seq<Doc<Movie>>): (gs: seq<string>)
    ensures forall g :: g in gs <==> HasGenre(c, g)
    ensures NoDuplicates(gs)
  {
    if c == [] then []
    else
      var p := c[..|c| - 1];
      var d := c[|c| - 1];
      assert c == p + [d];
      forall g
        ensures HasGenre(c, g) <==> HasGenre(p, g) || d.body.genre == g
      {
        HasGenreSnoc(p, d, g);
      }
      var gs := Genres(p);
      if d.body.genre in gs then gs else gs + [d.body.genre]
  }

  lemma GenresSnoc(p: seq<Doc<Movie>>, d: Doc<Movie>)
    ensures Genres(p + [d]) == if d.body.genre in Genres(p) then Genres(p) else Genres(p) + [d.body.genre]
  {
    var c := p + [d];
    assert c[..|c| - 1] == p;
  }

  /** The movies of genre `g`, in catalog order. */
  function OfGenre(c: seq<Doc<Movie>>, g: string): (r: seq<Doc<Movie>>)
    ensures forall d :: d in r <==> d in c && d.body.genre == g
    ensures |r| <= |c|
  {
    if c == [] then []
    else
      var p := c[..|c| - 1];
      assert c == p + [c[|c| - 1]];
      OfGenre(p, g) + (if c[|c| - 1].body.genre == g then [c[|c| - 1]] else [])
  }

  /** The reference answer for a catalog: one group per distinct genre, in order of first appearance. */
  function Grouping(c: seq<Doc<Movie>>): (groups: seq<Group>)
    ensures |groups| == |Genres(c)|
  {
    var gs := Genres(c);
    seq(|gs|, k requires 0 <= k < |gs| => Group(gs[k], OfGenre(c, gs[k])))
  }

  /** Position of the group for genre `g`, or the number of groups when there is none. */
  function FindGroup(groups: seq<Group>, g: string): (k: nat)
    ensures k <= |groups|
    ensures k < |groups| ==> groups[k].genre == g
    ensures forall j :: 0 <= j < k ==> groups[j].genre != g
  {
    if groups == [] then 0
    else if groups[0].genre == g then 0
    else 1 + FindGroup(groups[1..], g)
  }

  lemma OfGenreSnoc(p: seq<Doc<Movie>>, d: Doc<Movie>, h: string)
    ensures OfGenre(p + [d], h) == OfGenre(p, h) + (if d.body.genre == h then [d] else [])
  {
    var c := p + [d];
    assert c[..|c| - 1] == p;
  }

  /** A movie of a genre already present joins that genre's group. */
  lemma GroupingJoin(p: seq<Doc<Movie>>, d: Doc<Movie>, k: nat)
    requires k < |Grouping(p)| && Grouping(p)[k].genre == d.body.genre
    ensures Grouping(p + [d]) == Grouping(p)[k := Group(d.body.genre, Grouping(p)[k].movies + [d])]
  {
    var gs := Genres(p);
    var G := Grouping(p);
    var G' := Grouping(p + [d]);
    var R := G[k := Group(d.body.genre, G[k].movies + [d])];
    GenresSnoc(p, d);
    assert Genres(p + [d]) == gs;
    forall j | 0 <= j < |G'|
      ensures G'[j] == R[j]
    {
      OfGenreSnoc(p, d, gs[j]);
    }
  }

  lemma OfGenreAbsent(p: seq<Doc<Movie>>, g: string)
    requires g !in Genres(p)
    ensures OfGenre(p, g) == []
  {
  }

  lemma FindGroupMisses(p: seq<Doc<Movie>>, g: string)
    requires FindGroup(Grouping(p), g) == |Grouping(p)|
    ensures g !in Genres(p)
  {
    var G := Grouping(p);
    forall j | 0 <= j < |Genres(p)|
      ensures Genres(p)[j] != g
    {
      assert G[j].genre == Genres(p)[j];
    }
  }

  /** With a movie of a new genre appended, the genres are the old ones followed by the new one. */
  lemma GenresOpen(p: seq<Doc<Movie>>, d: Doc<Movie>)
    requires d.body.genre !in Genres(p)
    ensures Genres(p + [d]) == Genres(p) + [d.body.genre]
  {
    GenresSnoc(p, d);
  }

  /** A movie of a new genre leaves every existing group as it was. */
  lemma GroupingOpenKeeps(p: seq<Doc<Movie>>, d: Doc<Movie>, j: nat)
    requires d.body.genre !in Genres(p)
    requires j < |Genres(p)|
    ensures j < |Grouping(p + [d])| && Grouping(p + [d])[j] == Grouping(p)[j]
  {
    var gs := Genres(p);
    GenresOpen(p, d);
    assert Genres(p + [d])[j] == gs[j];
    assert gs[j] != d.body.genre;
    OfGenreSnoc(p, d, gs[j]);
  }

  /** A movie of a new genre forms a one-movie group of its own. */
  lemma GroupingOpenNew(p: seq<Doc<Movie>>, d: Doc<Movie>)
    requires d.body.genre !in Genres(p)
    ensures |Grouping(p)| < |Grouping(p + [d])| && Grouping(p + [d])[|Grouping(p)|] == Group(d.body.genre, [d])
  {
    var g := d.body.genre;
    GenresOpen(p, d);
    assert Genres(p + [d])[|Genres(p)|] == g;
    OfGenreSnoc(p, d, g);
    OfGenreAbsent(p, g);
  }

  /** A movie of a new genre opens a group of its own after the existing ones. */
  lemma GroupingOpen(p: seq<Doc<Movie>>, d: Doc<Movie>)
    requires d.body.genre !in Genres(p)
    ensures Grouping(p + [d]) == Grouping(p) + [Group(d.body.genre, [d])]
  {
    var G := Grouping(p);
    var G' := Grouping(p + [d]);
    var R := G + [Group(d.body.genre, [d])];
    GenresOpen(p, d);
    assert |G'| == |R|;
    forall j | 0 <= j < |G'|
      ensures G'[j] == R[j]
    {
      if j < |G| {
        GroupingOpenKeeps(p, d, j);
        assert R[j] == G[j];
      } else {
        GroupingOpenNew(p, d);
        assert R[j] == Group(d.body.genre, [d]);
      }
    }
  }

  /** Adding one movie to the end of the catalog either extends its genre's group or opens a new one at the end. */
  lemma GroupingStep(p: seq<Doc<Movie>>, d: Doc<Movie>)
    ensures
      var g := d.body.genre;
      var k := FindGroup(Grouping(p), g);
      Grouping(p + [d]) ==
        if k < |Grouping(p)| then Grouping(p)[k := Group(g, Grouping(p)[k].movies + [d])]
        else Grouping(p) + [Group(g, [d])]
  {
    var g := d.body.genre;
    var G := Grouping(p);
    var k := FindGroup(G, g);
    if k < |G| {
      GroupingJoin(p, d, k);
    } else {
      FindGroupMisses(p, g);
      GroupingOpen(p, d);
    }
  }

  /** The `$group` stage: one pass over the catalog, accumulating each movie into its genre's group. */
  method GroupByGenre(c: seq<Doc<Movie>>) returns (groups: seq<Group>)
    ensures groups == Grouping(c)
  {
    groups := [];
    var i := 0;
    while i < |c|
      invariant 0 <= i <= |c|
      invariant groups == Grouping(c[..i])
    {
      var d := c[i];
      var k := FindGroup(groups, d.body.genre);
      GroupingStep(c[..i], d);
      if k < |groups| {
        groups := groups[k := Group(d.body.genre, groups[k].movies + [d])];
      } else {
        groups := groups + [Group(d.body.genre, [d])];
      }
      assert c[..i + 1] == c[..i] + [d];
      i := i + 1;
    }
    assert c[..i] == c;
  }

  /** Each group is non-empty, holds exactly the catalog's movies of its genre, and no two groups share a genre. */
  lemma GroupsAreGenreClasses(c: seq<Doc<Movie>>)
    ensures forall k :: 0 <= k < |Grouping(c)| ==> |Grouping(c)[k].movies| > 0
    ensures forall k, d :: 0 <= k < |Grouping(c)| ==>
              (d in Grouping(c)[k].movies <==> d in c && d.body.genre == Grouping(c)[k].genre)
    ensures forall k, l :: 0 <= k < l < |Grouping(c)| ==> Grouping(c)[k].genre != Grouping(c)[l].genre
  {
    var G := Grouping(c);
    forall k | 0 <= k < |G|
      ensures |G[k].movies| > 0
    {
      assert G[k].genre in Genres(c);
      var i :| 0 <= i < |c| && c[i].body.genre == G[k].genre;
      assert c[i] in G[k].movies;
    }
  }

  /** Every movie of the catalog lies in the group of its genre. */
  lemma EveryMovieGrouped(c: seq<Doc<Movie>>, i: nat)
    requires i < |c|
    ensures exists k :: 0 <= k < |Grouping(c)| && Grouping(c)[k].genre == c[i].body.genre && c[i] in Grouping(c)[k].movies
  {
    var gs := Genres(c);
    var g := c[i].body.genre;
    assert g in gs;
    var k :| 0 <= k < |gs| && gs[k] == g;
    assert Grouping(c)[k].genre == g;
  }

  function TotalSize(groups: seq<Group>): nat {
    if groups == [] then 0 else TotalSize(groups[..|groups| - 1]) + |groups[|groups| - 1].movies|
  }

  lemma {:induction false} TotalSizeUpdate(groups: seq<Group>, k: nat, grp: Group)
    requires k < |groups|
    ensures TotalSize(groups[k := grp]) == TotalSize(groups) - |groups[k].movies| + |grp.movies|
    decreases |groups|
  {
    var n := |groups| - 1;
    var groups' := groups[k := grp];
    assert groups'[..n] == if k == n then groups[..n] else groups[..n][k := grp];
    if k < n {
      TotalSizeUpdate(groups[..n], k, grp);
    }
  }

  /** The groups together hold as many movies as the catalog: with the classes above, a partition of it. */
  lemma {:induction false} GroupingPartitions(c: seq<Doc<Movie>>)
    ensures TotalSize(Grouping(c)) == |c|
  {
    if c != [] {
      var p := c[..|c| - 1];
      var d := c[|c| - 1];
      assert c == p + [d];
      GroupingPartitions(p);
      GroupingStep(p, d);
      var G := Grouping(p);
      var k := FindGroup(G, d.body.genre);
      if k < |G| {
        TotalSizeUpdate(G, k, Group(d.body.genre, G[k].movies + [d]));
      } else {
        assert (G + [Group(d.body.genre, [d])])[..|G|] == G;
      }
    }
  }
}

=== FILE: common.dfy ===
/**
 Shared vocabulary of the model: optional values, results carrying the
 routes' error tags, the JSON values a request body can hold, and document
 collections kept in the database's natural (insertion) order.
 */
module Common {

  datatype Option<+T> = None | Some(value: T)

  /** One tag per distinct failure response of the routes. */
  datatype Error =
    | InvalidId           // 400: the id is not a structurally valid ObjectId
    | ValidationError     // 400: a required body field is missing or falsy
    | NotFound            // 404: the referenced document does not exist
    | AlreadyPresent      // 400: the movie is already in the watchlist
    | AuthRequired        // 401: no Authorization header
    | InvalidToken        // 400: the token did not verify
    | InvalidCredentials  // 400: login failed; which part was wrong is not disclosed
    | DuplicateKey        // 500: a unique index rejected the insert
    | SchemaViolation     // 500: a value could not be cast to its schema type or failed a validator
    | TypeFailure         // 500: a string method or the hasher was handed a non-string

  datatype Result<+T> = Ok(value: T) | Err(error: Error)

  /** A value of a parsed JSON request body; `Undefined` is a field the body does not have. */
  datatype Json =
    | Undefined
    | Null
    | Bool(b: bool)
    | Num(n: real)
    | Str(s: string)
    | Arr(items: seq<Json>)
    | Obj

  /** JavaScript truthiness: `v` is truthy exactly when `!v` is false. */
  predicate Truthy(v: Json) {
    match v
    case Undefined => false
    case Null => false
    case Bool(b) => b
    case Num(n) => n != 0.0
    case Str(s) => s != ""
    case Arr(_) => true
    case Obj => true
  }

  /** Document identifiers, written as the 24-character strings the API exchanges. */
  type Id = string

  /** The driver's structural check on an id string (`ObjectId.isValid`), taken as given. */
  type IdSyntax = Id -> bool

  /** An id given in a JSON body is valid only when it is a string the driver accepts. */
  predicate ValidJsonId(valid: IdSyntax, v: Json) {
    v.Str? && valid(v.s)
  }

  datatype Doc<T> = Doc(id: Id, body: T)

  predicate HasId<T>(c: seq<Doc<T>>, id: Id) {
    exists i :: 0 <= i < |c| && c[i].id == id
  }

  predicate UniqueIds<T>(c: seq<Doc<T>>) {
    forall i, j :: 0 <= i < j < |c| ==> c[i].id != c[j].id
  }

  /** `findById`: the body of the first document carrying `id`, if any. */
  function Lookup<T>(c: seq<Doc<T>>, id: Id): (r: Option<T>)
    ensures r.Some? <==> HasId(c, id)
    ensures r.Some? ==> Doc(id, r.value) in c
  {
    if c == [] then None
    else if c[0].id == id then Some(c[0].body)
    else
      var r := Lookup(c[1..], id);
      assert HasId(c, id) <==> HasId(c[1..], id) by {
        if HasId(c, id) {
          var i :| 0 <= i < |c| && c[i].id == id;
          assert c[1..][i - 1].id == id;
        }
        if HasId(c[1..], id) {
          var i :| 0 <= i < |c[1..]| && c[1..][i].id == id;
          assert c[i + 1].id == id;
        }
      }
      r
  }

  /** In a collection with unique ids, the document stored under `id` is the one found. */
  lemma {:induction false} LookupUnique<T>(c: seq<Doc<T>>, id: Id, v: T)
    requires UniqueIds(c)
    requires Doc(id, v) in c
    ensures Lookup(c, id) == Some(v)
  {
    if c[0].id != id {
      assert UniqueIds(c[1..]) by {
        forall i, j | 0 <= i < j < |c[1..]|
          ensures c[1..][i].id != c[1..][j].id
        {
          assert c[1..][i] == c[i + 1] && c[1..][j] == c[j + 1];
        }
      }
      LookupUnique(c[1..], id, v);
    }
  }

  /** Replaces the body of every document carrying `id` (a `save` or `findByIdAndUpdate`). */
  function SetDoc<T>(c: seq<Doc<T>>, id: Id, v: T): (r: seq<Doc<T>>)
    ensures |r| == |c|
    ensures forall i :: 0 <= i < |c| ==> r[i].id == c[i].id
  {
    seq(|c|, i requires 0 <= i < |c| => if c[i].id == id then Doc(id, v) else c[i])
  }

  /** After a replacement, the replaced id finds the new body and every other id finds what it found before. */
  lemma {:induction false} LookupSetDoc<T>(c: seq<Doc<T>>, id: Id, v: T, other: Id)
    ensures HasId(SetDoc(c, id, v), other) <==> HasId(c, other)
    ensures Lookup(SetDoc(c, id, v), other) ==
              if other == id && HasId(c, id) then Some(v) else Lookup(c, other)
  {
    var r := SetDoc(c, id, v);
    if c != [] {
      assert r[1..] == SetDoc(c[1..], id, v);
      LookupSetDoc(c[1..], id, v, other);
      assert HasId(r, other) <==> HasId(c, other) by {
        if HasId(r, other) {
          var i :| 0 <= i < |r| && r[i].id == other;
          assert c[i].id == other;
        }
        if HasId(c, other) {
          var i :| 0 <= i < |c| && c[i].id == other;
          assert r[i].id == other;
        }
      }
    }
  }

  /** Replacing bodies keeps the collection's ids, hence their uniqueness. */
  lemma SetDocKeepsIds<T>(c: seq<Doc<T>>, id: Id, v: T)
    requires UniqueIds(c)
    ensures UniqueIds(SetDoc(c, id, v))
  {
  }
}

=== FILE: models.dfy ===
/**
 The three document kinds of the database (movies, users, reviews), the
 store that holds them, the invariants the routes maintain over it, and the
 arithmetic of the per-movie average rating.
 */
module Models {
  import opened Common
  import opened Text

  /** A catalog entry; the five strings are required, `ratings` defaults to [] and `averageRating` to 0. */
  datatype Movie = Movie(
    title: string,
    poster: string,
    description: string,
    releaseDate: string,
    ratings: seq<real>,
    averageRating: real,
    genre: string)

  /** An account; `password` holds the one-way hash, never the plain password. */
  datatype User = User(email: string, username: string, password: string, watchlist: seq<Id>)

  /** One submitted review, referencing its author and its movie. */
  datatype Review = Review(userId: Id, movieId: Id, review: string, rating: real)

  /** The three collections, each in natural (insertion) order. */
  datatype Store = Store(movies: seq<Doc<Movie>>, users: seq<Doc<User>>, reviews: seq<Doc<Review>>)

  /** The schema's `required: true` on a string rejects the empty string. */
  predicate MovieRequired(m: Movie) {
    m.title != "" && m.poster != "" && m.description != "" && m.releaseDate != "" && m.genre != ""
  }

  predicate NoDuplicates<T(==)>(s: seq<T>) {
    forall i, j :: 0 <= i < j < |s| ==> s[i] != s[j]
  }

  /** Required fields present, identifiers stored trimmed and lower-cased, watchlist free of repeats. */
  predicate UserWellFormed(u: User) {
    && u.email != "" && u.username != "" && u.password != ""
    && IsNormal(u.email) && IsNormal(u.username)
    && NoDuplicates(u.watchlist)
  }

  /** The unique indexes on `email` and on `username`. */
  predicate UniqueCredentials(users: seq<Doc<User>>) {
    forall i, j :: 0 <= i < j < |users| ==>
      users[i].body.email != users[j].body.email && users[i].body.username != users[j].body.username
  }

  /** What every route that writes leaves true of the store. */
  predicate ValidStore(s: Store) {
    && UniqueIds(s.movies) && UniqueIds(s.users) && UniqueIds(s.reviews)
    && (forall i :: 0 <= i < |s.movies| ==> MovieRequired(s.movies[i].body))
    && (forall i :: 0 <= i < |s.users| ==> UserWellFormed(s.users[i].body))
    && UniqueCredentials(s.users)
    && (forall i :: 0 <= i < |s.reviews| ==> s.reviews[i].body.review != "")
  }

  /** The user stored under `userId`, when there is one. */
  function UserOf(s: Store, userId: Id): User
    requires HasId(s.users, userId)
  {
    Lookup(s.users, userId).value
  }

  /**
   `listed` is a faithful resolution of `ids` against the catalog: each entry is
   a listed id with the movie stored under it, every listed id that has a movie
   appears, and when every id has a movie the entries follow the list one to one.
   */
  predicate Resolved(listed: seq<Doc<Movie>>, ids: seq<Id>, movies: seq<Doc<Movie>>) {
    && (forall d :: d in listed ==> d.id in ids && d in movies && Lookup(movies, d.id) == Some(d.body))
    && (forall i :: 0 <= i < |ids| && HasId(movies, ids[i]) ==> Doc(ids[i], Lookup(movies, ids[i]).value) in listed)
    && ((forall i :: 0 <= i < |ids| ==> HasId(movies, ids[i])) ==>
          |listed| == |ids| && forall k :: 0 <= k < |ids| ==> listed[k].id == ids[k])
  }

  /** The movies behind a list of ids, in list order; ids with no movie are dropped, as `populate` does. */
  function Populate(ids: seq<Id>, movies: seq<Doc<Movie>>): (r: seq<Doc<Movie>>)
    ensures |r| <= |ids|
    ensures Resolved(r, ids, movies)
  {
    if ids == [] then []
    else
      var rest := Populate(ids[1..], movies);
      var head := match Lookup(movies, ids[0]) case None => [] case Some(m) => [Doc(ids[0], m)];
      PopulateStep(ids, movies, head, rest);
      head + rest
  }

  /** The recursive case of `Populate`: resolving the first id and then the rest resolves the whole list. */
  lemma PopulateStep(ids: seq<Id>, movies: seq<Doc<Movie>>, head: seq<Doc<Movie>>, rest: seq<Doc<Movie>>)
    requires ids != []
    requires head == match Lookup(movies, ids[0]) case None => [] case Some(m) => [Doc(ids[0], m)]
    requires |rest| <= |ids| - 1 && Resolved(rest, ids[1..], movies)
    ensures |head + rest| <= |ids| && Resolved(head + rest, ids, movies)
  {
    var r := head + rest;
    forall d | d in r
      ensures d.id in ids && d in movies && Lookup(movies, d.id) == Some(d.body)
    {
      if d in rest {
        assert d.id in ids[1..];
      }
    }
    forall i | 0 <= i < |ids| && HasId(movies, ids[i])
      ensures Doc(ids[i], Lookup(movies, ids[i]).value) in r
    {
      if i > 0 {
        assert ids[1..][i - 1] == ids[i];
      }
    }
    if forall i :: 0 <= i < |ids| ==> HasId(movies, ids[i]) {
      assert forall i :: 0 <= i < |ids[1..]| ==> ids[1..][i] == ids[i + 1];
      assert HasId(movies, ids[0]);
      forall k | 0 <= k < |ids|
        ensures r[k].id == ids[k]
      {
        if k > 0 {
          assert r[k] == rest[k - 1];
        }
      }
    }
  }

  /** Resolving a concatenation resolves each part, keeping the list order. */
  lemma {:induction false} PopulateAppend(a: seq<Id>, b: seq<Id>, movies: seq<Doc<Movie>>)
    ensures Populate(a + b, movies) == Populate(a, movies) + Populate(b, movies)
  {
    if a != [] {
      assert (a + b)[1..] == a[1..] + b;
      PopulateAppend(a[1..], b, movies);
    } else {
      assert a + b == b;
    }
  }

  /** A single id resolves to its movie, or to nothing. */
  lemma PopulateOne(id: Id, movies: seq<Doc<Movie>>)
    ensures Populate([id], movies) == match Lookup(movies, id) case None => [] case Some(m) => [Doc(id, m)]
  {
    assert [id][1..] == [];
  }

  /** The total the route's `reduce` computes, on exact reals. */
  function Sum(rs: seq<real>): real {
    if rs == [] then 0.0 else Sum(rs[..|rs| - 1]) + rs[|rs| - 1]
  }

  function Mean(rs: seq<real>): real
    requires |rs| > 0
  {
    Sum(rs) / (|rs| as real)
  }

  /** Bounds on the ratings bound their total. */
  lemma {:induction false} SumWithin(rs: seq<real>, lo: real, hi: real)
    requires forall i :: 0 <= i < |rs| ==> lo <= rs[i] <= hi
    ensures lo * (|rs| as real) <= Sum(rs) <= hi * (|rs| as real)
  {
    if rs != [] {
      SumWithin(rs[..|rs| - 1], lo, hi);
    }
  }

  /** The mean of ratings that all lie in [lo, hi] lies in [lo, hi]. */
  lemma MeanWithin(rs: seq<real>, lo: real, hi: real)
    requires |rs| > 0
    requires forall i :: 0 <= i < |rs| ==> lo <= rs[i] <= hi
    ensures lo <= Mean(rs) <= hi
  {
    SumWithin(rs, lo, hi);
    var n := |rs| as real;
    assert lo * n <= Sum(rs) <= hi * n;
    assert Mean(rs) * n == Sum(rs);
  }

  /** The nearest whole number of tenths to `x`; a tie goes away from zero, as `toFixed` does. */
  function Tenths(x: real): (k: int)
    ensures -0.5 <= (k as real) - x * 10.0 <= 0.5
    ensures x >= 0.0 ==> (k as real) - x * 10.0 > -0.5
    ensures x < 0.0 ==> (k as real) - x * 10.0 < 0.5
  {
    if x < 0.0 then -((-x * 10.0 + 0.5).Floor) else (x * 10.0 + 0.5).Floor
  }

  /** `Number(x.toFixed(1))` on exact reals: a whole number of tenths within a twentieth of `x`. */
  function Round1(x: real): (r: real)
    ensures -0.05 <= r - x <= 0.05
  {
    (Tenths(x) as real) / 10.0
  }

  /** The relation the review route re-establishes on a movie: the average is the rounded mean of its ratings, or 0 without any. */
  predicate Consistent(m: Movie) {
    if m.ratings == [] then m.averageRating == 0.0 else m.averageRating == Round1(Mean(m.ratings))
  }
}

=== FILE: reviews.dfy ===
/**
 Reviews and rating aggregation: submitting a review (POST /reviews), which
 also appends the rating to the movie and recomputes its average, and the two
 listings (GET /reviews/user and GET /reviews/:movieId).
 */
module Reviews {
  import opened Common
  import opened Models

  /** The body of POST /reviews. */
  datatype ReviewBody = ReviewBody(movieId: Json, review: Json, rating: Json)

  /** The route's presence check: all three fields truthy and the rating of type number. */
  predicate FieldsPresent(b: ReviewBody) {
    Truthy(b.movieId) && Truthy(b.review) && Truthy(b.rating) && b.rating.Num?
  }

  /** The movie a successful submission targets, with the stored document found under its id. */
  function Target(s: Store, b: ReviewBody): Movie
    requires b.movieId.Str? && HasId(s.movies, b.movieId.s)
  {
    Lookup(s.movies, b.movieId.s).value
  }

  /**
   POST /reviews, as one atomic step. Checks run in order and the first failure
   answers: id syntax, then field presence, then the movie's existence. On
   success the review is stored under `reviewId` for the caller `userId`, and
   the movie's ratings and average are updated.
   */
  function SubmitReview(s: Store, valid: IdSyntax, userId: Id, reviewId: Id, b: ReviewBody): (r: Result<(Store, Doc<Movie>)>)
    ensures !ValidJsonId(valid, b.movieId) ==> r == Err(InvalidId)
    ensures ValidJsonId(valid, b.movieId) && !FieldsPresent(b) ==> r == Err(ValidationError)
    ensures ValidJsonId(valid, b.movieId) && FieldsPresent(b) && !HasId(s.movies, b.movieId.s) ==> r == Err(NotFound)
    ensures ValidJsonId(valid, b.movieId) && FieldsPresent(b) && HasId(s.movies, b.movieId.s) ==>
              (r.Ok? <==> b.review.Str? && !HasId(s.reviews, reviewId))
    ensures r.Ok? ==>
      var (s', d) := r.value;
      var id := b.movieId.s;
      var m := Target(s, b);
      && d.id == id
      && d.body.ratings == m.ratings + [b.rating.n]
      && d.body.averageRating == Round1(Mean(d.body.ratings))
      && d.body == m.(ratings := d.body.ratings, averageRating := d.body.averageRating)
      && Lookup(s'.movies, id) == Some(d.body)
      && (forall other :: other != id ==> Lookup(s'.movies, other) == Lookup(s.movies, other))
      && s'.reviews == s.reviews + [Doc(reviewId, Review(userId, id, b.review.s, b.rating.n))]
      && s'.users == s.users
  {
    if !ValidJsonId(valid, b.movieId) then Err(InvalidId)
    else if !FieldsPresent(b) then Err(ValidationError)
    else
      var id := b.movieId.s;
      match Lookup(s.movies, id)
      case None => Err(NotFound)
      case Some(m) =>
        if !b.review.Str? then Err(SchemaViolation)
        else if HasId(s.reviews, reviewId) then Err(DuplicateKey)
        else
          var ratings := m.ratings + [b.rating.n];
          var m' := m.(ratings := ratings, averageRating := Round1(Sum(ratings) / (|ratings| as real)));
          var movies := SetDoc(s.movies, id, m');
          assert forall other :: Lookup(movies, other) ==
                   if other == id then Some(m') else Lookup(s.movies, other) by {
            forall other { LookupSetDoc(s.movies, id, m', other); }
          }
          var rv := Doc(reviewId, Review(userId, id, b.review.s, b.rating.n));
          Ok((Store(movies, s.users, s.reviews + [rv]), Doc(id, m')))
  }

  /** A rating of 0 is falsy and is refused like a missing one. */
  lemma ZeroRatingRefused(s: Store, valid: IdSyntax, userId: Id, reviewId: Id, movieId: Json, text: Json)
    requires ValidJsonId(valid, movieId)
    ensures SubmitReview(s, valid, userId, reviewId, ReviewBody(movieId, text, Num(0.0))) == Err(ValidationError)
  {
  }

  /** A body without a movie id fails the id check before the presence check is reached. */
  lemma MissingMovieIdIsInvalidId(s: Store, valid: IdSyntax, userId: Id, reviewId: Id, text: Json, rating: Json)
    ensures SubmitReview(s, valid, userId, reviewId, ReviewBody(Undefined, text, rating)) == Err(InvalidId)
  {
  }

  /** Each accepted review adds exactly one rating, and the movie's average is again consistent with its ratings. */
  lemma SubmitAppendsOneRating(s: Store, valid: IdSyntax, userId: Id, reviewId: Id, b: ReviewBody)
    requires SubmitReview(s, valid, userId, reviewId, b).Ok?
    ensures
      var (s', d) := SubmitReview(s, valid, userId, reviewId, b).value;
      && |d.body.ratings| == |Target(s, b).ratings| + 1
      && Consistent(d.body)
      && |s'.reviews| == |s.reviews| + 1
  {
  }

  /** A successful submission keeps every store invariant. */
  lemma SubmitKeepsValid(s: Store, valid: IdSyntax, userId: Id, reviewId: Id, b: ReviewBody)
    requires ValidStore(s)
    requires SubmitReview(s, valid, userId, reviewId, b).Ok?
    ensures ValidStore(SubmitReview(s, valid, userId, reviewId, b).value.0)
  {
    var (s', d) := SubmitReview(s, valid, userId, reviewId, b).value;
    var id := b.movieId.s;
    var m := Target(s, b);
    assert Doc(id, m) in s.movies;
    SetDocKeepsIds(s.movies, id, d.body);
    assert s'.movies == SetDoc(s.movies, id, d.body);
    forall i | 0 <= i < |s'.movies|
      ensures MovieRequired(s'.movies[i].body)
    {
      if s.movies[i].id == id {
        LookupUnique(s.movies, id, s.movies[i].body);
      }
    }
    forall i, j | 0 <= i < j < |s'.reviews|
      ensures s'.reviews[i].id != s'.reviews[j].id
    {
      if j == |s.reviews| {
        assert s'.reviews[i] == s.reviews[i];
      }
    }
  }

  /** Ratings [4, 5] with average 4.5, then a rating of 3: ratings [4, 5, 3], average 4.0. */
  lemma SubmitExample()
    ensures
      var m := Movie("Heat", "p.jpg", "d", "1995", [4.0, 5.0], 4.5, "crime");
      var s := Store([Doc("m1", m)], [], []);
      var r := SubmitReview(s, _ => true, "u1", "r1", ReviewBody(Str("m1"), Str("good"), Num(3.0)));
      && r.Ok?
      && r.value.1.body.ratings == [4.0, 5.0, 3.0]
      && r.value.1.body.averageRating == 4.0
      && r.value.0.reviews == [Doc("r1", Review("u1", "m1", "good", 3.0))]
  {
    var m := Movie("Heat", "p.jpg", "d", "1995", [4.0, 5.0], 4.5, "crime");
    var s := Store([Doc("m1", m)], [], []);
    assert Lookup(s.movies, "m1") == Some(m);
    assert !HasId(s.reviews, "r1");
    var rs := [4.0, 5.0, 3.0];
    assert rs[..2] == [4.0, 5.0] && rs[..2][..1] == [4.0] && rs[..2][..1][..0] == [];
    assert Sum(rs) == 12.0;
    assert Tenths(4.0) == 40;
  }

  /** Rounding to tenths never reverses the order of two values. */
  lemma TenthsMonotone(x: real, y: real)
    requires x <= y
    ensures Tenths(x) <= Tenths(y)
  {
    if x < 0.0 && y < 0.0 {
      assert (-y * 10.0 + 0.5).Floor <= (-x * 10.0 + 0.5).Floor;
    }
  }

  /** A whole number is already a whole number of tenths. */
  lemma TenthsOfWhole(n: int)
    ensures Tenths(n as real) == 10 * n
  {
  }

  /** When every rating lies between two whole numbers lo and hi, so does the rounded average. */
  lemma AverageWithinRatingRange(rs: seq<real>, lo: int, hi: int)
    requires |rs| > 0
    requires forall i :: 0 <= i < |rs| ==> lo as real <= rs[i] <= hi as real
    ensures lo as real <= Round1(Mean(rs)) <= hi as real
  {
    MeanWithin(rs, lo as real, hi as real);
    TenthsMonotone(lo as real, Mean(rs));
    TenthsMonotone(Mean(rs), hi as real);
    TenthsOfWhole(lo);
    TenthsOfWhole(hi);
  }

  /** One row of GET /reviews/user. */
  datatype ReviewSummary = ReviewSummary(id: Id, movieTitle: string, poster: Option<string>, review: string, rating: real)

  /**
   `r` is the review `d` joined with its movie: `movieId?.title || 'Unknown Movie'`
   and `movieId?.poster || null`, where an unresolved movie reads as null.
   */
  predicate Joined(r: ReviewSummary, d: Doc<Review>, movies: seq<Doc<Movie>>) {
    var m := Lookup(movies, d.body.movieId);
    && r.id == d.id && r.review == d.body.review && r.rating == d.body.rating
    && r.movieTitle == (if m.Some? && m.value.title != "" then m.value.title else "Unknown Movie")
    && r.poster == (if m.Some? && m.value.poster != "" then Some(m.value.poster) else None)
  }

  /** A review joined with its movie's title and poster; a movie that cannot be resolved reads as "Unknown Movie" with no poster. */
  function Summarize(d: Doc<Review>, movies: seq<Doc<Movie>>): (r: ReviewSummary)
    ensures Joined(r, d, movies)
    ensures !HasId(movies, d.body.movieId) ==> r.movieTitle == "Unknown Movie" && r.poster == None
    ensures r.poster.Some? ==> r.poster.value != "" && exists m :: Doc(d.body.movieId, m) in movies && m.poster == r.poster.value
  {
    match Lookup(movies, d.body.movieId)
    case None => ReviewSummary(d.id, "Unknown Movie", None, d.body.review, d.body.rating)
    case Some(m) =>
      ReviewSummary(
        d.id,
        if m.title != "" then m.title else "Unknown Movie",
        if m.poster != "" then Some(m.poster) else None,
        d.body.review,
        d.body.rating)
  }

  /** The join reads only the title and poster of the review's own movie: catalogs that agree on those give the same row. */
  lemma SummarizeReadsOwnMovie(d: Doc<Review>, movies1: seq<Doc<Movie>>, movies2: seq<Doc<Movie>>)
    requires HasId(movies1, d.body.movieId) <==> HasId(movies2, d.body.movieId)
    requires HasId(movies1, d.body.movieId) ==>
               var m1, m2 := Lookup(movies1, d.body.movieId).value, Lookup(movies2, d.body.movieId).value;
               m1.title == m2.title && m1.poster == m2.poster
    ensures Summarize(d, movies1) == Summarize(d, movies2)
  {
  }

  /** `Review.find(filter)`: the reviews the filter keeps, in natural order. */
  function Where(reviews: seq<Doc<Review>>, keep: Review -> bool): (r: seq<Doc<Review>>)
    ensures forall d :: d in r <==> d in reviews && keep(d.body)
    ensures |r| <= |reviews|
  {
    if reviews == [] then []
    else (if keep(reviews[0].body) then [reviews[0]] else []) + Where(reviews[1..], keep)
  }

  /** Filtering distributes over concatenation, so the kept reviews stay in natural order. */
  lemma {:induction false} WhereAppend(a: seq<Doc<Review>>, b: seq<Doc<Review>>, keep: Review -> bool)
    ensures Where(a + b, keep) == Where(a, keep) + Where(b, keep)
  {
    if a != [] {
      assert (a + b)[1..] == a[1..] + b;
      WhereAppend(a[1..], b, keep);
    } else {
      assert a + b == b;
    }
  }

  /** A single review is kept exactly when the filter accepts it. */
  lemma WhereOne(d: Doc<Review>, keep: Review -> bool)
    ensures Where([d], keep) == if keep(d.body) then [d] else []
  {
    assert [d][1..] == [];
  }

  /** The reviews written by `userId`, in natural order. */
  function ByUser(reviews: seq<Doc<Review>>, userId: Id): seq<Doc<Review>> {
    Where(reviews, (rv: Review) => rv.userId == userId)
  }

  /** GET /reviews/user: the caller's reviews, in natural order, each joined with its movie. */
  function ListUserReviews(s: Store, userId: Id): (r: seq<ReviewSummary>)
    ensures |r| == |ByUser(s.reviews, userId)|
    ensures forall k :: 0 <= k < |r| ==>
              var d := ByUser(s.reviews, userId)[k];
              && d in s.reviews && d.body.userId == userId
              && Joined(r[k], d, s.movies)
  {
    var mine := ByUser(s.reviews, userId);
    assert forall k :: 0 <= k < |mine| ==> mine[k] in mine;
    Joins(mine, s.movies)
  }

  /** Each review of `ds` joined with its movie, in order. */
  function Joins(ds: seq<Doc<Review>>, movies: seq<Doc<Movie>>): seq<ReviewSummary> {
    seq(|ds|, k requires 0 <= k < |ds| => Summarize(ds[k], movies))
  }

  /** Once the catalog is emptied, every listed review still appears, as "Unknown Movie" without a poster. */
  lemma ListingSurvivesDeletedMovies(s: Store, userId: Id)
    ensures
      var r := ListUserReviews(s.(movies := []), userId);
      && |r| == |ByUser(s.reviews, userId)|
      && forall k :: 0 <= k < |r| ==> r[k].movieTitle == "Unknown Movie" && r[k].poster == None
  {
  }

  /** One row of GET /reviews/:movieId: the review with its author's username, when the author still exists. */
  datatype ReviewWithAuthor = ReviewWithAuthor(id: Id, author: Option<string>, review: Review)

  /** The reviews of `movieId`, in natural order. */
  function ForMovie(reviews: seq<Doc<Review>>, movieId: Id): seq<Doc<Review>> {
    Where(reviews, (rv: Review) => rv.movieId == movieId)
  }

  function WithAuthor(d: Doc<Review>, users: seq<Doc<User>>): ReviewWithAuthor {
    match Lookup(users, d.body.userId)
    case None => ReviewWithAuthor(d.id, None, d.body)
    case Some(u) => ReviewWithAuthor(d.id, Some(u.username), d.body)
  }

  /** Each review of `ds` with its author, in order. */
  function Authored(ds: seq<Doc<Review>>, users: seq<Doc<User>>): seq<ReviewWithAuthor> {
    seq(|ds|, k requires 0 <= k < |ds| => WithAuthor(ds[k], users))
  }

  /** GET /reviews/:movieId: a malformed id is refused; otherwise the movie's reviews with their authors. */
  function ListMovieReviews(s: Store, valid: IdSyntax, movieId: Id): (r: Result<seq<ReviewWithAuthor>>)
    ensures !valid(movieId) <==> r == Err(InvalidId)
    ensures r.Ok? ==> |r.value| == |ForMovie(s.reviews, movieId)|
    ensures r.Ok? ==> forall k :: 0 <= k < |r.value| ==>
              Doc(r.value[k].id, r.value[k].review) in s.reviews && r.value[k].review.movieId == movieId
    ensures r.Ok? ==> forall k :: 0 <= k < |r.value| ==>
              (r.value[k].author.None? <==> !HasId(s.users, r.value[k].review.userId))
    ensures r.Ok? ==> forall k :: 0 <= k < |r.value| ==>
              && Doc(r.value[k].id, r.value[k].review) == ForMovie(s.reviews, movieId)[k]
              && (HasId(s.users, r.value[k].review.userId) ==>
                    r.value[k].author == Some(UserOf(s, r.value[k].review.userId).username))
  {
    if !valid(movieId) then Err(InvalidId)
    else
      var theirs := ForMovie(s.reviews, movieId);
      var rows := Authored(theirs, s.users);
      assert forall k :: 0 <= k < |rows| ==> Doc(rows[k].id, rows[k].review) == theirs[k] && theirs[k] in theirs;
      Ok(rows)
  }

  /** Two catalogs that agree on which ids have a movie and on each movie's title and poster. */
  ghost predicate SameJoin(movies1: seq<Doc<Movie>>, movies2: seq<Doc<Movie>>) {
    forall id ::
      && (HasId(movies1, id) <==> HasId(movies2, id))
      && (HasId(movies1, id) ==>
            Lookup(movies1, id).value.title == Lookup(movies2, id).value.title
            && Lookup(movies1, id).value.poster == Lookup(movies2, id).value.poster)
  }

  /**
   After a submission by `userId`, the caller's listing is the old listing with
   the new review's row at the end: updating the rating leaves every movie's
   title and poster as they were.
   */
  lemma SubmitThenUserListing(s: Store, valid: IdSyntax, userId: Id, reviewId: Id, b: ReviewBody)
    requires SubmitReview(s, valid, userId, reviewId, b).Ok?
    ensures
      var s' := SubmitReview(s, valid, userId, reviewId, b).value.0;
      var rv := Doc(reviewId, Review(userId, b.movieId.s, b.review.s, b.rating.n));
      ListUserReviews(s', userId) == ListUserReviews(s, userId) + [Summarize(rv, s.movies)]
  {
    var s' := SubmitReview(s, valid, userId, reviewId, b).value.0;
    CatalogJoinUnchanged(s, valid, userId, reviewId, b);
    UserListingAppend(s, s', userId, Doc(reviewId, Review(userId, b.movieId.s, b.review.s, b.rating.n)));
  }

  /** A submission changes no movie's title or poster, nor which ids have a movie. */
  lemma CatalogJoinUnchanged(s: Store, valid: IdSyntax, userId: Id, reviewId: Id, b: ReviewBody)
    requires SubmitReview(s, valid, userId, reviewId, b).Ok?
    ensures
      var s' := SubmitReview(s, valid, userId, reviewId, b).value.0;
      && SameJoin(s'.movies, s.movies)
      && s'.reviews == s.reviews + [Doc(reviewId, Review(userId, b.movieId.s, b.review.s, b.rating.n))]
      && s'.users == s.users
  {
  }

  /** Appending a review by `userId` over a catalog with the same join appends its row to the caller's listing. */
  lemma UserListingAppend(s: Store, s': Store, userId: Id, rv: Doc<Review>)
    requires s'.reviews == s.reviews + [rv] && rv.body.userId == userId
    requires SameJoin(s'.movies, s.movies)
    ensures ListUserReviews(s', userId) == ListUserReviews(s, userId) + [Summarize(rv, s.movies)]
  {
    var keep := (r: Review) => r.userId == userId;
    WhereAppend(s.reviews, [rv], keep);
    WhereOne(rv, keep);
    var mine := ByUser(s.reviews, userId);
    assert ByUser(s'.reviews, userId) == mine + [rv];
    assert ListUserReviews(s', userId) == Joins(mine + [rv], s'.movies);
    assert ListUserReviews(s, userId) == Joins(mine, s.movies);
    forall k | 0 <= k < |mine| + 1
      ensures Summarize((mine + [rv])[k], s'.movies) == Summarize((mine + [rv])[k], s.movies)
    {
      var d := (mine + [rv])[k];
      assert HasId(s'.movies, d.body.movieId) <==> HasId(s.movies, d.body.movieId);
      SummarizeReadsOwnMovie(d, s'.movies, s.movies);
    }
  }

  /** After a submission, the movie's listing is the old listing with the new review, and its author, at the end. */
  lemma SubmitThenMovieListing(s: Store, valid: IdSyntax, userId: Id, reviewId: Id, b: ReviewBody)
    requires SubmitReview(s, valid, userId, reviewId, b).Ok?
    ensures
      var s' := SubmitReview(s, valid, userId, reviewId, b).value.0;
      var rv := Doc(reviewId, Review(userId, b.movieId.s, b.review.s, b.rating.n));
      && ListMovieReviews(s, valid, b.movieId.s).Ok?
      && ListMovieReviews(s', valid, b.movieId.s) == Ok(ListMovieReviews(s, valid, b.movieId.s).value + [WithAuthor(rv, s.users)])
  {
    var s' := SubmitReview(s, valid, userId, reviewId, b).value.0;
    CatalogJoinUnchanged(s, valid, userId, reviewId, b);
    MovieListingAppend(s, s', valid, Doc(reviewId, Review(userId, b.movieId.s, b.review.s, b.rating.n)));
  }

  /** Appending a review of a well-formed movie id, with the users unchanged, appends its row to that movie's listing. */
  lemma MovieListingAppend(s: Store, s': Store, valid: IdSyntax, rv: Doc<Review>)
    requires valid(rv.body.movieId)
    requires s'.reviews == s.reviews + [rv] && s'.users == s.users
    ensures ListMovieReviews(s, valid, rv.body.movieId).Ok?
    ensures ListMovieReviews(s', valid, rv.body.movieId) == Ok(ListMovieReviews(s, valid, rv.body.movieId).value + [WithAuthor(rv, s.users)])
  {
    var id := rv.body.movieId;
    var keep := (r: Review) => r.movieId == id;
    WhereAppend(s.reviews, [rv], keep);
    WhereOne(rv, keep);
    var theirs := ForMovie(s.reviews, id);
    assert ForMovie(s'.reviews, id) == theirs + [rv];
    assert ListMovieReviews(s', valid, id) == Ok(Authored(theirs + [rv], s.users));
    assert ListMovieReviews(s, valid, id) == Ok(Authored(theirs, s.users));
    assert Authored(theirs + [rv], s.users) == Authored(theirs, s.users) + [WithAuthor(rv, s.users)];
  }
}

=== FILE: text.dfy ===
/**
 The string operations the routes apply to request data: JavaScript's
 `trim`, `toLowerCase` (on the ASCII range), `startsWith` and `split`.
 */
module Text {

  /** The code points `String.prototype.trim` removes: WhiteSpace and LineTerminator. */
  predicate IsJsSpace(c: char) {
    || c == '\t' || c == '\n' || c == '\U{000B}' || c == '\U{000C}' || c == '\r'
    || c == ' ' || c == '\U{00A0}' || c == '\U{1680}'
    || ('\U{2000}' <= c <= '\U{200A}')
    || c == '\U{2028}' || c == '\U{2029}' || c == '\U{202F}' || c == '\U{205F}'
    || c == '\U{3000}' || c == '\U{FEFF}'
  }

  predicate IsUpper(c: char) {
    'A' <= c <= 'Z'
  }

  /** Drops leading white space: what is left is a suffix of `s` that does not start with a space. */
  function TrimStart(s: string): (r: string)
    ensures |r| <= |s| && r == s[|s| - |r|..]
    ensures forall k :: 0 <= k < |s| - |r| ==> IsJsSpace(s[k])
    ensures r != [] ==> !IsJsSpace(r[0])
  {
    if s != [] && IsJsSpace(s[0]) then TrimStart(s[1..]) else s
  }

  /** Drops trailing white space: what is left is a prefix of `s` that does not end with a space. */
  function TrimEnd(s: string): (r: string)
    ensures |r| <= |s| && r == s[..|r|]
    ensures forall k :: |r| <= k < |s| ==> IsJsSpace(s[k])
    ensures r != [] ==> !IsJsSpace(r[|r| - 1])
  {
    if s != [] && IsJsSpace(s[|s| - 1]) then TrimEnd(s[..|s| - 1]) else s
  }

  /** `s.trim()` */
  function Trim(s: string): string {
    TrimEnd(TrimStart(s))
  }

  function LowerChar(c: char): char {
    if IsUpper(c) then (c as int + 32) as char else c
  }

  /** `s.toLowerCase()`, restricted to the ASCII letters. */
  function Lower(s: string): (r: string)
    ensures |r| == |s|
    ensures forall i :: 0 <= i < |s| ==> r[i] == LowerChar(s[i])
  {
    seq(|s|, i requires 0 <= i < |s| => LowerChar(s[i]))
  }

  /** The form in which the user schema stores an email or a username. */
  predicate IsNormal(s: string) {
    && (forall k :: 0 <= k < |s| ==> !IsUpper(s[k]))
    && (s != [] ==> !IsJsSpace(s[0]) && !IsJsSpace(s[|s| - 1]))
  }

  /** Lower-casing never turns a space into a non-space or back, and leaves no upper-case letter. */
  lemma LowerCharFacts(c: char)
    ensures IsJsSpace(LowerChar(c)) == IsJsSpace(c)
    ensures !IsUpper(LowerChar(c))
  {
  }

  /** Trimming leaves nothing exactly when the string is all white space. */
  lemma TrimEmpty(s: string)
    ensures Trim(s) == [] <==> forall k :: 0 <= k < |s| ==> IsJsSpace(s[k])
  {
    var u := TrimStart(s);
    if Trim(s) != [] {
      assert !IsJsSpace(s[|s| - |u|]);
    }
  }

  /** The number of white-space characters `trim` removes from the front of `s`. */
  function Lead(s: string): (n: nat)
    ensures n <= |s|
  {
    |s| - |TrimStart(s)|
  }

  /** `trim` keeps the characters of `s` that follow its leading white space, and what it keeps neither starts nor ends with a space. */
  lemma TrimSlice(s: string)
    ensures Lead(s) + |Trim(s)| <= |s|
    ensures forall i :: 0 <= i < |Trim(s)| ==> Trim(s)[i] == s[Lead(s) + i]
    ensures Trim(s) != [] ==> !IsJsSpace(Trim(s)[0]) && !IsJsSpace(Trim(s)[|Trim(s)| - 1])
  {
    var u := TrimStart(s);
    var t := Trim(s);
    forall i | 0 <= i < |t|
      ensures t[i] == s[Lead(s) + i]
    {
      assert t[i] == u[..|t|][i] == u[i];
      assert u[i] == s[|s| - |u|..][i];
    }
    if t != [] {
      assert t[0] == u[0];
    }
  }

  /** Every character of `x` is white space. */
  predicate Blank(x: string) {
    forall k :: 0 <= k < |x| ==> IsJsSpace(x[k])
  }

  /** What `trim` removes from either end of `s` is white space. */
  lemma TrimTail(s: string)
    ensures Lead(s) + |Trim(s)| <= |s|
    ensures Blank(s[..Lead(s)])
    ensures Blank(s[Lead(s) + |Trim(s)|..])
  {
    var u := TrimStart(s);
    var t := Trim(s);
    assert u == s[Lead(s)..];
    var tail := s[Lead(s) + |t|..];
    forall k | 0 <= k < |tail|
      ensures IsJsSpace(tail[k])
    {
      assert tail[k] == u[|t| + k];
    }
  }

  /** Lower-casing a string whose ends are not white space gives a string in normal form. */
  lemma LowerNormal(t: string)
    requires t != [] ==> !IsJsSpace(t[0]) && !IsJsSpace(t[|t| - 1])
    ensures IsNormal(Lower(t))
  {
    var r := Lower(t);
    forall k | 0 <= k < |r|
      ensures !IsUpper(r[k]) && IsJsSpace(r[k]) == IsJsSpace(t[k])
    {
      LowerCharFacts(t[k]);
    }
  }

  /** The facts that characterize `Lower(Trim(s))`. */
  lemma TrimmedLower(s: string)
    ensures IsNormal(Lower(Trim(s)))
    ensures Lead(s) + |Lower(Trim(s))| <= |s|
    ensures forall i :: 0 <= i < |Lower(Trim(s))| ==> Lower(Trim(s))[i] == LowerChar(s[Lead(s) + i])
    ensures Blank(s[..Lead(s)]) && Blank(s[Lead(s) + |Lower(Trim(s))|..])
    ensures Lower(Trim(s)) == [] <==> Blank(s)
  {
    var t := Trim(s);
    TrimSlice(s);
    TrimTail(s);
    TrimEmpty(s);
    LowerNormal(t);
  }

  /**
   `s.trim().toLowerCase()`, as register and login apply to identifiers: the
   lower-cased characters of `s` between the white space at its two ends.
   */
  function Normalize(s: string): (r: string)
    ensures IsNormal(r)
    ensures Lead(s) + |r| <= |s|
    ensures forall i :: 0 <= i < |r| ==> r[i] == LowerChar(s[Lead(s) + i])
    ensures Blank(s[..Lead(s)]) && Blank(s[Lead(s) + |r|..])
    ensures r == [] <==> Blank(s)
  {
    TrimmedLower(s);
    Lower(Trim(s))
  }

  /** A string already in normal form is left alone by trimming and lower-casing. */
  lemma NormalFixed(s: string)
    requires IsNormal(s)
    ensures Normalize(s) == s
  {
    assert TrimStart(s) == s;
    assert TrimEnd(s) == s;
    assert Lower(s) == s;
  }

  /** Normalizing twice is normalizing once, so the schema's own `trim` and `lowercase` setters change nothing further. */
  lemma NormalizeIdempotent(s: string)
    ensures Normalize(Normalize(s)) == Normalize(s)
  {
    NormalFixed(Normalize(s));
  }

  predicate StartsWith(s: string, prefix: string) {
    |prefix| <= |s| && s[..|prefix|] == prefix
  }

  function Count(s: string, c: char): nat {
    if s == [] then 0 else (if s[0] == c then 1 else 0) + Count(s[1..], c)
  }

  /** `s.split(sep)` for a one-character separator: one more part than separators, none containing it. */
  function Split(s: string, sep: char): (parts: seq<string>)
    ensures |parts| == Count(s, sep) + 1
    ensures forall i :: 0 <= i < |parts| ==> sep !in parts[i]
  {
    if s == [] then [[]]
    else
      var rest := Split(s[1..], sep);
      if s[0] == sep then [[]] + rest
      else [[s[0]] + rest[0]] + rest[1..]
  }

  /** `parts.join(sep)` */
  function Join(parts: seq<string>, sep: char): string
    requires |parts| >= 1
  {
    if |parts| == 1 then parts[0] else parts[0] + [sep] + Join(parts[1..], sep)
  }

  /** Splitting and joining on the same separator gives back the original string. */
  lemma {:induction false} JoinSplit(s: string, sep: char)
    ensures Join(Split(s, sep), sep) == s
  {
    if s != [] {
      var rest := Split(s[1..], sep);
      JoinSplit(s[1..], sep);
      if s[0] == sep {
        assert Split(s, sep)[1..] == rest;
      } else {
        var parts := Split(s, sep);
        if |rest| == 1 {
          assert parts == [[s[0]] + rest[0]];
        } else {
          assert parts[1..] == rest[1..];
          assert Join(rest, sep) == rest[0] + [sep] + Join(rest[1..], sep);
        }
      }
    }
  }

  /** A separator-free head and tail around one separator split into exactly those two parts. */
  lemma {:induction false} SplitAround(head: string, tail: string, sep: char)
    requires sep !in head && sep !in tail
    ensures Split(head + [sep] + tail, sep) == [head, tail]
  {
    var s := head + [sep] + tail;
    if head == [] {
      assert s[1..] == tail;
      SplitNone(tail, sep);
    } else {
      assert s[1..] == head[1..] + [sep] + tail;
      SplitAround(head[1..], tail, sep);
      assert [s[0]] + head[1..] == head;
    }
  }

  /** A string without the separator splits into itself. */
  lemma {:induction false} SplitNone(s: string, sep: char)
    requires sep !in s
    ensures Split(s, sep) == [s]
  {
    if s != [] {
      SplitNone(s[1..], sep);
      assert [s[0]] + s[1..] == s;
    }
  }

  /** The first space-free segment of `s`, and the stop after it. */
  lemma {:induction false} SplitFirst(s: string, sep: char)
    ensures var f := Split(s, sep)[0]; |f| <= |s| && f == s[..|f|] && (|f| == |s| || s[|f|] == sep)
  {
    if s != [] && s[0] != sep {
      SplitFirst(s[1..], sep);
    }
  }

  /** A separator-free head followed by the separator splits off as the first part. */
  lemma {:induction false} SplitAfterHead(head: string, rest: string, sep: char)
    requires sep !in head
    ensures Split(head + [sep] + rest, sep) == [head] + Split(rest, sep)
  {
    var s := head + [sep] + rest;
    if head == [] {
      assert s[1..] == rest;
    } else {
      assert s[1..] == head[1..] + [sep] + rest;
      SplitAfterHead(head[1..], rest, sep);
      assert [s[0]] + head[1..] == head;
    }
  }
}

=== FILE: watchlist.dfy ===
/**
 The per-user watchlist: adding a movie id (POST /movies/:movieId/add-to-watchlist),
 removing one with `$pull` (DELETE /watchlist/:movieId), and listing the
 watchlist with its ids resolved to movies (GET /watchlist).
 */
module Watchlist {
  import opened Common
  import opened Models
  import opened Text

  /** `$pull`: every occurrence of `x` goes, the rest keep their order. */
  function Pull(w: seq<Id>, x: Id): (r: seq<Id>)
    ensures forall y :: y in r <==> y in w && y != x
    ensures |r| <= |w|
  {
    if w == [] then [] else (if w[0] == x then [] else [w[0]]) + Pull(w[1..], x)
  }

  /** Pulling distributes over concatenation, so the survivors keep their relative order. */
  lemma {:induction false} PullAppend(a: seq<Id>, b: seq<Id>, x: Id)
    ensures Pull(a + b, x) == Pull(a, x) + Pull(b, x)
  {
    if a != [] {
      assert (a + b)[1..] == a[1..] + b;
      PullAppend(a[1..], b, x);
    } else {
      assert a + b == b;
    }
  }

  /** Pulling an id that is not there changes nothing. */
  lemma {:induction false} PullAbsent(w: seq<Id>, x: Id)
    requires x !in w
    ensures Pull(w, x) == w
  {
    if w != [] {
      PullAbsent(w[1..], x);
      assert [w[0]] + w[1..] == w;
    }
  }

  /** Pulling twice is pulling once. */
  lemma PullIdempotent(w: seq<Id>, x: Id)
    ensures Pull(Pull(w, x), x) == Pull(w, x)
  {
    PullAbsent(Pull(w, x), x);
  }

  /** Pulling from a repeat-free list leaves a repeat-free list. */
  lemma {:induction false} PullKeepsNoDuplicates(w: seq<Id>, x: Id)
    requires NoDuplicates(w)
    ensures NoDuplicates(Pull(w, x))
  {
    if w != [] {
      assert NoDuplicates(w[1..]) by {
        forall i, j | 0 <= i < j < |w[1..]|
          ensures w[1..][i] != w[1..][j]
        {
          assert w[1..][i] == w[i + 1] && w[1..][j] == w[j + 1];
        }
      }
      PullKeepsNoDuplicates(w[1..], x);
      assert w[0] !in w[1..] by {
        forall k | 0 <= k < |w[1..]|
          ensures w[1..][k] != w[0]
        {
          assert w[1..][k] == w[k + 1];
        }
      }
    }
  }

  /** Removing what was just appended restores the watchlist. */
  lemma AddThenRemove(w: seq<Id>, x: Id)
    requires x !in w
    ensures Pull(w + [x], x) == w
  {
    PullAppend(w, [x], x);
    PullAbsent(w, x);
  }

  /** POST /movies/:movieId/add-to-watchlist with ids compared as exact strings: appends the id unless it is malformed, the user is gone, or it is already listed. */
  function AddToWatchlist(s: Store, valid: IdSyntax, userId: Id, movieId: Id): (r: Result<(Store, seq<Id>)>)
    ensures !valid(movieId) ==> r == Err(InvalidId)
    ensures valid(movieId) && !HasId(s.users, userId) ==> r == Err(NotFound)
    ensures valid(movieId) && HasId(s.users, userId) ==>
              (r == Err(AlreadyPresent) <==> movieId in UserOf(s, userId).watchlist)
    ensures valid(movieId) && HasId(s.users, userId) && movieId !in UserOf(s, userId).watchlist ==> r.Ok?
    ensures r.Ok? ==>
      var (s', w) := r.value;
      && HasId(s.users, userId)
      && w == UserOf(s, userId).watchlist + [movieId]
      && Lookup(s'.users, userId) == Some(UserOf(s, userId).(watchlist := w))
      && (forall other :: other != userId ==> Lookup(s'.users, other) == Lookup(s.users, other))
      && s'.movies == s.movies && s'.reviews == s.reviews
  {
    if !valid(movieId) then Err(InvalidId)
    else
      match Lookup(s.users, userId)
      case None => Err(NotFound)
      case Some(u) =>
        if movieId in u.watchlist then Err(AlreadyPresent)
        else
          var w := u.watchlist + [movieId];
          var users := SetDoc(s.users, userId, u.(watchlist := w));
          assert forall other :: Lookup(users, other) ==
                   if other == userId then Some(u.(watchlist := w)) else Lookup(s.users, other) by {
            forall other { LookupSetDoc(s.users, userId, u.(watchlist := w), other); }
          }
          Ok((s.(users := users), w))
  }

  /**
   Adding never consults the catalog: whatever movies are stored, the same
   well-formed id is appended for the same user, even one with no movie behind it.
   */
  lemma AddIgnoresCatalog(s: Store, valid: IdSyntax, userId: Id, movieId: Id, movies: seq<Doc<Movie>>)
    requires valid(movieId) && HasId(s.users, userId) && movieId !in UserOf(s, userId).watchlist
    ensures
      var r := AddToWatchlist(s, valid, userId, movieId);
      && r.Ok?
      && AddToWatchlist(s.(movies := movies), valid, userId, movieId) == Ok((r.value.0.(movies := movies), r.value.1))
  {
  }

  /** A successful add keeps every store invariant, in particular the repeat-free watchlist. */
  lemma AddKeepsValid(s: Store, valid: IdSyntax, userId: Id, movieId: Id)
    requires ValidStore(s)
    requires AddToWatchlist(s, valid, userId, movieId).Ok?
    ensures ValidStore(AddToWatchlist(s, valid, userId, movieId).value.0)
  {
    var u := UserOf(s, userId);
    var u' := u.(watchlist := u.watchlist + [movieId]);
    UpdateUserKeepsValid(s, userId, u');
  }

  /**
   POST /movies/:movieId/add-to-watchlist as the code is written: the duplicate
   check looks for the id as given in the URL, while what is pushed is the
   ObjectId built from it, whose stored form is `canon(movieId)` (lower-case hex).
   */
  function AddAsWritten(s: Store, valid: IdSyntax, canon: Id -> Id, userId: Id, movieId: Id): (r: Result<(Store, seq<Id>)>)
    ensures !valid(movieId) ==> r == Err(InvalidId)
    ensures valid(movieId) && !HasId(s.users, userId) ==> r == Err(NotFound)
    ensures valid(movieId) && HasId(s.users, userId) ==>
              (r == Err(AlreadyPresent) <==> movieId in UserOf(s, userId).watchlist)
    ensures valid(movieId) && HasId(s.users, userId) && movieId !in UserOf(s, userId).watchlist ==> r.Ok?
    ensures r.Ok? ==>
      var (s', w) := r.value;
      && HasId(s.users, userId)
      && w == UserOf(s, userId).watchlist + [canon(movieId)]
      && Lookup(s'.users, userId) == Some(UserOf(s, userId).(watchlist := w))
      && (forall other :: other != userId ==> Lookup(s'.users, other) == Lookup(s.users, other))
      && s'.movies == s.movies && s'.reviews == s.reviews
  {
    if !valid(movieId) then Err(InvalidId)
    else
      match Lookup(s.users, userId)
      case None => Err(NotFound)
      case Some(u) =>
        if movieId in u.watchlist then Err(AlreadyPresent)
        else
          var w := u.watchlist + [canon(movieId)];
          var users := SetDoc(s.users, userId, u.(watchlist := w));
          assert forall other :: Lookup(users, other) ==
                   if other == userId then Some(u.(watchlist := w)) else Lookup(s.users, other) by {
            forall other { LookupSetDoc(s.users, userId, u.(watchlist := w), other); }
          }
          Ok((s.(users := users), w))
  }

  /**
   The add with its duplicate check made on the stored form: the id is refused
   as AlreadyPresent exactly when `canon(movieId)`, the entry it would store,
   is already listed.
   */
  function AddStored(s: Store, valid: IdSyntax, canon: Id -> Id, userId: Id, movieId: Id): (r: Result<(Store, seq<Id>)>)
    ensures !valid(movieId) ==> r == Err(InvalidId)
    ensures valid(movieId) && !HasId(s.users, userId) ==> r == Err(NotFound)
    ensures valid(movieId) && HasId(s.users, userId) ==>
              (r == Err(AlreadyPresent) <==> canon(movieId) in UserOf(s, userId).watchlist)
    ensures valid(movieId) && HasId(s.users, userId) && canon(movieId) !in UserOf(s, userId).watchlist ==> r.Ok?
    ensures r.Ok? ==>
      var (s', w) := r.value;
      && HasId(s.users, userId)
      && w == UserOf(s, userId).watchlist + [canon(movieId)]
      && Lookup(s'.users, userId) == Some(UserOf(s, userId).(watchlist := w))
      && (forall other :: other != userId ==> Lookup(s'.users, other) == Lookup(s.users, other))
      && s'.movies == s.movies && s'.reviews == s.reviews
  {
    if !valid(movieId) then Err(InvalidId)
    else
      match Lookup(s.users, userId)
      case None => Err(NotFound)
      case Some(u) =>
        if canon(movieId) in u.watchlist then Err(AlreadyPresent)
        else
          var w := u.watchlist + [canon(movieId)];
          var users := SetDoc(s.users, userId, u.(watchlist := w));
          assert forall other :: Lookup(users, other) ==
                   if other == userId then Some(u.(watchlist := w)) else Lookup(s.users, other) by {
            forall other { LookupSetDoc(s.users, userId, u.(watchlist := w), other); }
          }
          Ok((s.(users := users), w))
  }

  /** Whatever the stored form, the stored-form add keeps the watchlist repeat-free and every other store invariant. */
  lemma AddStoredKeepsValid(s: Store, valid: IdSyntax, canon: Id -> Id, userId: Id, movieId: Id)
    requires ValidStore(s)
    requires AddStored(s, valid, canon, userId, movieId).Ok?
    ensures ValidStore(AddStored(s, valid, canon, userId, movieId).value.0)
    ensures NoDuplicates(AddStored(s, valid, canon, userId, movieId).value.1)
  {
    var u := UserOf(s, userId);
    var u' := u.(watchlist := u.watchlist + [canon(movieId)]);
    assert Doc(userId, u) in s.users;
    UpdateUserKeepsValid(s, userId, u');
  }

  /** On an id already in stored form, the stored-form add, the route as written and the exact-string add all agree. */
  lemma AddStoredOnStoredForm(s: Store, valid: IdSyntax, canon: Id -> Id, userId: Id, movieId: Id)
    requires canon(movieId) == movieId
    ensures AddStored(s, valid, canon, userId, movieId) == AddAsWritten(s, valid, canon, userId, movieId)
    ensures AddStored(s, valid, canon, userId, movieId) == AddToWatchlist(s, valid, userId, movieId)
  {
  }

  /** For an id already in stored form the code as written is the exact-string add. */
  lemma AddAsWrittenOnStoredForm(s: Store, valid: IdSyntax, canon: Id -> Id, userId: Id, movieId: Id)
    requires canon(movieId) == movieId
    ensures AddAsWritten(s, valid, canon, userId, movieId) == AddToWatchlist(s, valid, userId, movieId)
  {
  }

  /** When the stored form of an id is listed but the id as written is not, the code as written adds the movie again. */
  lemma StoredFormAddedAgain(s: Store, valid: IdSyntax, canon: Id -> Id, userId: Id, movieId: Id)
    requires valid(movieId) && HasId(s.users, userId)
    requires movieId !in UserOf(s, userId).watchlist && canon(movieId) in UserOf(s, userId).watchlist
    ensures AddAsWritten(s, valid, canon, userId, movieId).Ok?
    ensures !NoDuplicates(AddAsWritten(s, valid, canon, userId, movieId).value.1)
  {
    var w := UserOf(s, userId).watchlist;
    var w' := AddAsWritten(s, valid, canon, userId, movieId).value.1;
    var i :| 0 <= i < |w| && w[i] == canon(movieId);
    assert w'[i] == w'[|w|];
  }

  /**
   An id whose stored form differs from the way it was written (say
   `507F1F77BCF86CD799439011`, stored as `507f1f77bcf86cd799439011`) passes the
   duplicate check twice, so the code as written lists the same movie twice.
   */
  lemma StoredFormAddedTwice(s: Store, valid: IdSyntax, canon: Id -> Id, userId: Id, movieId: Id)
    requires valid(movieId) && HasId(s.users, userId)
    requires movieId !in UserOf(s, userId).watchlist && canon(movieId) != movieId
    ensures
      var r1 := AddAsWritten(s, valid, canon, userId, movieId);
      && r1.Ok?
      && var r2 := AddAsWritten(r1.value.0, valid, canon, userId, movieId);
      && r2.Ok?
      && r2.value.1 == UserOf(s, userId).watchlist + [canon(movieId), canon(movieId)]
      && !NoDuplicates(r2.value.1)
  {
    var w := UserOf(s, userId).watchlist;
    var s1 := AddAsWritten(s, valid, canon, userId, movieId).value.0;
    assert HasId(s1.users, userId) && UserOf(s1, userId).watchlist == w + [canon(movieId)];
    var w1 := UserOf(s1, userId).watchlist;
    assert w1[|w|] == canon(movieId);
    StoredFormAddedAgain(s1, valid, canon, userId, movieId);
    assert AddAsWritten(s1, valid, canon, userId, movieId).value.1 == w1 + [canon(movieId)];
  }

  /** Concretely: the upper-case hex id `507F1F77BCF86CD799439011`, stored lower-cased, is listed twice after two adds. */
  lemma UpperCaseHexAddedTwice(valid: IdSyntax)
    requires valid("507F1F77BCF86CD799439011")
    ensures
      var s := Store([], [Doc("u1", User("a@x.com", "alice", "h", []))], []);
      var r1 := AddAsWritten(s, valid, Lower, "u1", "507F1F77BCF86CD799439011");
      && r1.Ok?
      && var r2 := AddAsWritten(r1.value.0, valid, Lower, "u1", "507F1F77BCF86CD799439011");
      && r2.Ok? && r2.value.1 == [Lower("507F1F77BCF86CD799439011"), Lower("507F1F77BCF86CD799439011")]
  {
    var id := "507F1F77BCF86CD799439011";
    var s := Store([], [Doc("u1", User("a@x.com", "alice", "h", []))], []);
    assert Lower(id)[3] == LowerChar('F') == 'f';
    assert Lookup(s.users, "u1") == Some(User("a@x.com", "alice", "h", []));
    StoredFormAddedTwice(s, valid, Lower, "u1", id);
  }

  /** Replacing a user's watchlist with a repeat-free one keeps every store invariant. */
  lemma UpdateUserKeepsValid(s: Store, userId: Id, u': User)
    requires ValidStore(s)
    requires HasId(s.users, userId)
    requires u'.email == UserOf(s, userId).email && u'.username == UserOf(s, userId).username
    requires u'.password == UserOf(s, userId).password
    requires NoDuplicates(u'.watchlist)
    ensures ValidStore(s.(users := SetDoc(s.users, userId, u')))
  {
    var users := SetDoc(s.users, userId, u');
    var u := UserOf(s, userId);
    assert Doc(userId, u) in s.users;
    forall i | 0 <= i < |users|
      ensures users[i].body.email == s.users[i].body.email
      ensures users[i].body.username == s.users[i].body.username
      ensures UserWellFormed(users[i].body)
    {
      if s.users[i].id == userId {
        LookupUnique(s.users, userId, s.users[i].body);
      }
    }
  }

  /** DELETE /watchlist/:movieId: pulls the id from the user's watchlist and answers with the resolved list. */
  function RemoveFromWatchlist(s: Store, valid: IdSyntax, userId: Id, movieId: Id): (r: Result<(Store, seq<Doc<Movie>>)>)
    ensures !valid(movieId) ==> r == Err(InvalidId)
    ensures valid(movieId) && !HasId(s.users, userId) ==> r == Err(NotFound)
    ensures valid(movieId) && HasId(s.users, userId) ==> r.Ok?
    ensures r.Ok? ==>
      var (s', listed) := r.value;
      && HasId(s.users, userId)
      && var w := UserOf(s, userId).watchlist;
      && Lookup(s'.users, userId) == Some(UserOf(s, userId).(watchlist := Pull(w, movieId)))
      && (forall other :: other != userId ==> Lookup(s'.users, other) == Lookup(s.users, other))
      && s'.movies == s.movies && s'.reviews == s.reviews
      && Resolved(listed, Pull(w, movieId), s.movies)
  {
    if !valid(movieId) then Err(InvalidId)
    else
      match Lookup(s.users, userId)
      case None => Err(NotFound)
      case Some(u) =>
        var w := Pull(u.watchlist, movieId);
        var users := SetDoc(s.users, userId, u.(watchlist := w));
        assert forall other :: Lookup(users, other) ==
                 if other == userId then Some(u.(watchlist := w)) else Lookup(s.users, other) by {
          forall other { LookupSetDoc(s.users, userId, u.(watchlist := w), other); }
        }
        Ok((s.(users := users), Populate(w, s.movies)))
  }

  /** After a successful remove the id occurs nowhere in the user's watchlist, and every other entry is still there. */
  lemma RemoveDropsEveryOccurrence(s: Store, valid: IdSyntax, userId: Id, movieId: Id)
    requires RemoveFromWatchlist(s, valid, userId, movieId).Ok?
    ensures
      var s' := RemoveFromWatchlist(s, valid, userId, movieId).value.0;
      var w' := UserOf(s', userId).watchlist;
      && movieId !in w'
      && forall y :: y in UserOf(s, userId).watchlist && y != movieId ==> y in w'
  {
    var s' := RemoveFromWatchlist(s, valid, userId, movieId).value.0;
    assert HasId(s'.users, userId);
  }

  /** Removing an id that is not listed succeeds and leaves the user's watchlist as it was. */
  lemma RemoveAbsentIsNoOp(s: Store, valid: IdSyntax, userId: Id, movieId: Id)
    requires valid(movieId) && HasId(s.users, userId)
    requires movieId !in UserOf(s, userId).watchlist
    ensures Lookup(RemoveFromWatchlist(s, valid, userId, movieId).value.0.users, userId) == Lookup(s.users, userId)
  {
    PullAbsent(UserOf(s, userId).watchlist, movieId);
  }

  /** Removing the same id twice leaves the watchlist as removing it once. */
  lemma RemoveIdempotent(s: Store, valid: IdSyntax, userId: Id, movieId: Id)
    requires valid(movieId) && HasId(s.users, userId)
    ensures
      var s1 := RemoveFromWatchlist(s, valid, userId, movieId).value.0;
      Lookup(RemoveFromWatchlist(s1, valid, userId, movieId).value.0.users, userId) == Lookup(s1.users, userId)
  {
    var s1 := RemoveFromWatchlist(s, valid, userId, movieId).value.0;
    assert HasId(s1.users, userId);
    PullIdempotent(UserOf(s, userId).watchlist, movieId);
  }

  /** A successful remove keeps every store invariant. */
  lemma RemoveKeepsValid(s: Store, valid: IdSyntax, userId: Id, movieId: Id)
    requires ValidStore(s)
    requires RemoveFromWatchlist(s, valid, userId, movieId).Ok?
    ensures ValidStore(RemoveFromWatchlist(s, valid, userId, movieId).value.0)
  {
    var u := UserOf(s, userId);
    assert Doc(userId, u) in s.users;
    PullKeepsNoDuplicates(u.watchlist, movieId);
    UpdateUserKeepsValid(s, userId, u.(watchlist := Pull(u.watchlist, movieId)));
  }

  /** The fields GET /watchlist selects from each listed movie. */
  datatype MovieSummary = MovieSummary(id: Id, title: string, poster: string, description: string, releaseDate: string)

  function Summary(d: Doc<Movie>): MovieSummary {
    MovieSummary(d.id, d.body.title, d.body.poster, d.body.description, d.body.releaseDate)
  }

  /** The summaries of a resolved list, entry by entry. */
  function Summaries(listed: seq<Doc<Movie>>): seq<MovieSummary> {
    seq(|listed|, i requires 0 <= i < |listed| => Summary(listed[i]))
  }

  /** GET /watchlist: the user's listed movies that still exist, in watchlist order. */
  function GetWatchlist(s: Store, userId: Id): (r: Result<seq<MovieSummary>>)
    ensures !HasId(s.users, userId) <==> r == Err(NotFound)
    ensures r.Ok? ==>
      var w := UserOf(s, userId).watchlist;
      && |r.value| <= |w|
      && (forall e :: e in r.value ==>
            e.id in w && HasId(s.movies, e.id) && e == Summary(Doc(e.id, Lookup(s.movies, e.id).value)))
      && (forall i :: 0 <= i < |w| && HasId(s.movies, w[i]) ==>
            Summary(Doc(w[i], Lookup(s.movies, w[i]).value)) in r.value)
      && ((forall i :: 0 <= i < |w| ==> HasId(s.movies, w[i])) ==>
            |r.value| == |w| && forall k :: 0 <= k < |w| ==> r.value[k].id == w[k])
  {
    match Lookup(s.users, userId)
    case None => Err(NotFound)
    case Some(u) =>
      var listed := Populate(u.watchlist, s.movies);
      SummariesOfResolved(listed, u.watchlist, s.movies);
      Ok(Summaries(listed))
  }

  /** Summarising a resolved list keeps its soundness, completeness and order. */
  lemma SummariesOfResolved(listed: seq<Doc<Movie>>, w: seq<Id>, movies: seq<Doc<Movie>>)
    requires Resolved(listed, w, movies)
    ensures forall e :: e in Summaries(listed) ==>
              e.id in w && HasId(movies, e.id) && e == Summary(Doc(e.id, Lookup(movies, e.id).value))
    ensures forall i :: 0 <= i < |w| && HasId(movies, w[i]) ==>
              Summary(Doc(w[i], Lookup(movies, w[i]).value)) in Summaries(listed)
  {
    var sums := Summaries(listed);
    forall e | e in sums
      ensures e.id in w && HasId(movies, e.id) && e == Summary(Doc(e.id, Lookup(movies, e.id).value))
    {
      var i :| 0 <= i < |sums| && sums[i] == e;
      assert listed[i] in listed;
    }
    forall i | 0 <= i < |w| && HasId(movies, w[i])
      ensures Summary(Doc(w[i], Lookup(movies, w[i]).value)) in sums
    {
      var d := Doc(w[i], Lookup(movies, w[i]).value);
      var k :| 0 <= k < |listed| && listed[k] == d;
      assert sums[k] == Summary(d);
    }
  }

  /** After an add, GET /watchlist lists what it listed before plus the added movie, if it exists, at the end. */
  lemma AddThenWatchlist(s: Store, valid: IdSyntax, userId: Id, movieId: Id)
    requires AddToWatchlist(s, valid, userId, movieId).Ok?
    ensures
      var s' := AddToWatchlist(s, valid, userId, movieId).value.0;
      var added := match Lookup(s.movies, movieId) case None => [] case Some(m) => [Summary(Doc(movieId, m))];
      GetWatchlist(s', userId) == Ok(GetWatchlist(s, userId).value + added)
  {
    var s' := AddToWatchlist(s, valid, userId, movieId).value.0;
    assert HasId(s'.users, userId);
    WatchlistAppend(s, s', userId, movieId);
  }

  /** Two stores whose user's watchlists differ by one id appended at the end, over the same catalog. */
  lemma WatchlistAppend(s: Store, s': Store, userId: Id, movieId: Id)
    requires HasId(s.users, userId) && HasId(s'.users, userId) && s'.movies == s.movies
    requires UserOf(s', userId).watchlist == UserOf(s, userId).watchlist + [movieId]
    ensures
      var added := match Lookup(s.movies, movieId) case None => [] case Some(m) => [Summary(Doc(movieId, m))];
      GetWatchlist(s', userId) == Ok(GetWatchlist(s, userId).value + added)
  {
    var w := UserOf(s, userId).watchlist;
    WatchlistOf(s', userId);
    WatchlistOf(s, userId);
    PopulateAppend(w, [movieId], s.movies);
    SummariesAppend(Populate(w, s.movies), Populate([movieId], s.movies));
    SummaryOfOne(movieId, s.movies);
  }

  /** A single id summarises to its movie's summary, or to nothing. */
  lemma SummaryOfOne(movieId: Id, movies: seq<Doc<Movie>>)
    ensures Summaries(Populate([movieId], movies))
              == match Lookup(movies, movieId) case None => [] case Some(m) => [Summary(Doc(movieId, m))]
  {
    PopulateOne(movieId, movies);
    match Lookup(movies, movieId) {
      case None =>
        assert Summaries([]) == [];
      case Some(m) =>
        assert Summaries([Doc(movieId, m)]) == [Summary(Doc(movieId, m))];
    }
  }

  /** For an existing user, GET /watchlist summarises the resolved watchlist. */
  lemma WatchlistOf(s: Store, userId: Id)
    requires HasId(s.users, userId)
    ensures GetWatchlist(s, userId) == Ok(Summaries(Populate(UserOf(s, userId).watchlist, s.movies)))
  {
  }

  lemma SummariesAppend(a: seq<Doc<Movie>>, b: seq<Doc<Movie>>)
    ensures Summaries(a + b) == Summaries(a) + Summaries(b)
  {
  }

  /** The list a remove answers with is exactly what GET /watchlist reports afterwards. */
  lemma RemoveThenWatchlist(s: Store, valid: IdSyntax, userId: Id, movieId: Id)
    requires RemoveFromWatchlist(s, valid, userId, movieId).Ok?
    ensures
      var (s', listed) := RemoveFromWatchlist(s, valid, userId, movieId).value;
      GetWatchlist(s', userId) == Ok(Summaries(listed))
  {
    var s' := RemoveFromWatchlist(s, valid, userId, movieId).value.0;
    assert HasId(s'.users, userId);
  }
}
